=== FILE: README.md ===
# Set-piece episode detector, in Dafny

This project models the core of the Set_Piece_Strategy pipeline. The pipeline cuts football event logs
(Wyscout events) into *set-piece sequences*: a sequence starts at a restart event (eventId 3) and
ends where the first of ten boundary rules fires. These are the parts modelled:

- **Rule battery** (`EndingChecker`, `src/data/set_piece_ending_checker.py`). It holds the ten boundary rules, each over a window of
  events: changed possession, attack reset, goalie save, goal, foul, offsides, out of play, end of
  regulation, effective clearance and another set piece. Each rule returns `None` (the source's
  `[False, -1]`) or `Some(id)`. The scanning rules are methods with loops, proved equal to a
  recursive specification function. Lemmas then pin down which row each rule reports.
- **Episode extraction** (`Extractor`, `src/data/set_piece_extractor.py`). This covers the restart filter, the generation of one sequence
  (the first rule to fire in `checks` order gives the boundary row) and the compilation of all
  sequences into one table labelled 1..n.
- **Per-event features** (`Features`, `src/data/feature_engineering.py`). These are the one-hot position indicator, the
  period-offset match clock, the score differential and the running share of attacking events.
- **Helpers**:
  - id and notation validation (`CommonTasks`);
  - team-name normalisation and unique lookup (`Teams`);
  - label-count completion, normalisation and sorting for the cluster bar charts (`ClusterPrep`);
  - percent-to-metre pitch conversion (`ContourPrep`).
- **Shared modules**:
  - `Wrappers` holds Option, Result and the Python exception kinds as `Error`;
  - `Seqs` holds search, filter, count and de-duplication over sequences;
  - `Text` holds `lower()` and whitespace removal;
  - `Events` holds the event record.

These inputs come from outside the model:
- the event window and the look-ahead window of a restart;
- the player table;
- the teams' home/away sides;
- the score string at an event;
- the team table's accent-normalised names.

Python exceptions are modelled as `Err` values of the matching kind.

## Model

| member | source | states |
|---|---|---|
| CommonTasks.IdChecker | src/data/common_tasks.py:61-70 | accepts exactly a positive int (or `True`, a Python int); anything else is an AssertionError |
| CommonTasks.NotationColumn | src/data/common_tasks.py:138-140 | the notation table maps two, three and full to code2, code3 and name, and knows no other key |
| CommonTasks.CheckedNotation | src/data/common_tasks.py:113-135 | a non-positive id raises AssertionError, a non-string notation TypeError, and a notation outside two/three/full after lower-casing and removing whitespace ValueError; otherwise it yields the normalised notation |
| CommonTasks.FindPlayer | src/data/common_tasks.py:143-145 | succeeds iff some player row has the id, and then yields the first such row; otherwise IndexError |
| CommonTasks.PlayerPositionAsWritten | src/data/common_tasks.py:138-146 | as written, succeeds exactly when validation and the player search do, and then always yields None, because the key looked up is the literal "normed_notation" |
| CommonTasks.PlayerPosition | src/data/common_tasks.py:113-146 | corrected lookup: succeeds iff validation and the player search do, errors of the right kind otherwise, and yields the first matching player's role entry for the requested notation's column |
| CommonTasks.NotationLookup | src/data/common_tasks.py:113-146 | for an accepted notation, fails iff the id is non-positive (AssertionError) or unknown (IndexError) |
| CommonTasks.NotationLookupAgrees | src/data/common_tasks.py:113-146 | the lookup with an accepted notation is the corrected extractor called with that string |
| CommonTasks.NotationsAreNormal | src/data/common_tasks.py:125-126 | the accepted notations are unchanged by lower-casing and whitespace removal |
| CommonTasks.AsWrittenLookupLosesPosition | src/data/common_tasks.py:141 | for a defender asked in "three" notation, the corrected lookup yields "DEF" and the code as written yields None |
| Text.LowerChar | src/data/common_tasks.py:126 | lower-casing maps A-Z to a-z and leaves every other character alone |
| Text.Lower | src/data/team_data.py:213 | `lower()` keeps the length and lower-cases each character |
| Text.Squeeze | src/data/common_tasks.py:126 | the normalised notation has no whitespace and no ASCII capitals and is no longer than the input |
| Text.SqueezeKeepsNormalForm | src/data/set_piece_extractor.py:80 | a string already lower-case and without whitespace is unchanged |
| Text.SqueezeIdempotent | src/data/set_piece_extractor.py:80 | normalising twice is normalising once |
| Events.IdsOf | src/data/set_piece_extractor.py:97 | the id column has one entry per row, in row order |
| Events.RowAt | src/data/set_piece_ending_checker.py:808-810 | `iloc` with a negative index counts from the end and always picks a row of the window |
| Events.FirstRowWithId | src/data/set_piece_extractor.py:184-186 | yields the first row index carrying the id, and None iff no row carries it |
| Seqs.FirstIndex | src/data/set_piece_extractor.py:182 | `argwhere(...)[0]`: the first index satisfying the test, None iff none does |
| Seqs.LastIndex | src/data/set_piece_ending_checker.py:737-771 | the last index satisfying the test, None iff none does |
| Seqs.Filter | src/data/set_piece_extractor.py:95 | a boolean mask keeps exactly the elements satisfying the test |
| Seqs.FilterAppend | src/data/set_piece_extractor.py:95 | masking distributes over concatenation, so row order is kept |
| Seqs.FilterUnion | src/visualizations/cluster_bar_chart_prep.py:92-94 | two masks that never hold together keep, between them, exactly the rows either keeps |
| Seqs.FilterRejectsAll | src/visualizations/cluster_bar_chart_prep.py:92-94 | a mask no row passes keeps nothing |
| Seqs.SetSizeBound | src/visualizations/cluster_bar_chart_prep.py:97-99 | a column has at most as many unique values as rows, and as many only when no value repeats |
| Seqs.Dedup | src/data/team_data.py:239-241 | `unique()`/`drop_duplicates()`: no repetitions, the same elements as the input |
| Seqs.DedupCardinality | src/data/team_data.py:239-243 | the number of de-duplicated rows is the number of distinct values |
| Seqs.DedupSingleton | src/data/feature_engineering.py:505-506 | on a non-empty sequence, one unique value iff all elements equal the first |
| Seqs.CountWhere | src/data/feature_engineering.py:522 | counts the elements satisfying the test and agrees with the mask's length |
| EndingChecker.CheckerSetUp | src/data/set_piece_ending_checker.py:34-104 | succeeds iff the start id is positive (AssertionError otherwise); it uses the supplied window when one is given and the generated one otherwise |
| EndingChecker.ChangedPossession | src/data/set_piece_ending_checker.py:165-253 | the loop returns exactly the specification scan's result for every window |
| EndingChecker.PossessionNeedsOpponent | src/data/set_piece_ending_checker.py:204-206 | a window with no row of another team never fires the rule |
| EndingChecker.PossessionEndInWindow | src/data/set_piece_ending_checker.py:204-242 | a reported boundary is the id of a window row |
| EndingChecker.FirstOpponentRowEndsAtItself | src/data/set_piece_ending_checker.py:218-242 | when the first opponent row already triggers (an x past 50, or a counter-attack tag), the boundary is that row itself |
| EndingChecker.FirstOpponentRowAddsNoTime | src/data/set_piece_ending_checker.py:204-242 | for every window whose rows 1..k-1 are attacking: the first opponent row k is judged with no pass and no time; if it triggers the boundary is row k itself, otherwise the scan goes on from row k+1 with a run holding only row k and its eventSec |
| EndingChecker.OpponentStep | src/data/set_piece_ending_checker.py:218-242 | an opponent row adds a pass and the time since the previous opponent row only when there was one; then it either fires (at the row before the run, or at itself for an empty run) or joins the run |
| EndingChecker.AttackingStep | src/data/set_piece_ending_checker.py:245-251 | an attacking row clears the count, the time and the run's ids but keeps the last opponent eventSec |
| EndingChecker.RunStarts | src/data/set_piece_ending_checker.py:204-242 | after only attacking rows, a first opponent row that does not trigger leaves the scan at row k+1 in the run state of one row |
| EndingChecker.RunAdvances | src/data/set_piece_ending_checker.py:218-242 | a non-triggering opponent row at i carries the run state of rows k..i-1 to that of rows k..i: one more pass, the time since row k, one more id |
| EndingChecker.RunContinues | src/data/set_piece_ending_checker.py:218-242 | through any stretch of non-triggering opponent rows the scan reaches row j in the run state of rows k..j-1 |
| EndingChecker.OpponentRunState | src/data/set_piece_ending_checker.py:204-242 | for every window: after only attacking rows, a run of non-triggering opponent rows k..j-1 leaves the scan at row j with j-1-k passes, the time since row k, the run's ids and row j-1's eventSec |
| EndingChecker.RunEndsBeforeRun | src/data/set_piece_ending_checker.py:204-242 | for every window: when row j is the first of the opponent run k..j to trigger (with j-k passes and the time since row k), the boundary is the row before k, provided row k's id does not occur earlier |
| EndingChecker.LongRunEndsBeforeRun | src/data/set_piece_ending_checker.py:204-242 | for every window: an opponent run after only attacking rows that reaches more than three passes before any row triggers ends at the row before the run's first row |
| EndingChecker.RunTimeSpansInterruption | src/data/set_piece_ending_checker.py:212-251 | for every window and scan state: attacking rows i..q-1 clear the run but not the last opponent eventSec, so opponent row q is judged with one pass and the time since that older row, firing at itself or starting a new one-row run |
| EndingChecker.AttackReset | src/data/set_piece_ending_checker.py:255-355 | the loop returns exactly the specification scan's result, including its lookup errors; positions come from the corrected lookup (see Findings and Left out) |
| EndingChecker.AttackResetIsLastReset | src/data/set_piece_ending_checker.py:289-353 | with the corrected position lookup: with no qualifying attacking row after row 0 the result is None; otherwise it is the id of the last qualifying row |
| EndingChecker.ResetScanIsLast | src/data/set_piece_ending_checker.py:289-353 | with the corrected position lookup: from any row on, the scan keeps its value when no qualifying attacking row follows and otherwise reports the last one |
| EndingChecker.AttackResetFailsOnUnknownPlayer | src/data/set_piece_ending_checker.py:300-305 | an attacking row whose initiator is missing from the player table makes the rule fail |
| EndingChecker.GoalieSave | src/data/set_piece_ending_checker.py:357-436 | the loop returns exactly the specification scan's result |
| EndingChecker.GoalieSaveIsFirstUntaggedAttempt | src/data/set_piece_ending_checker.py:389-434 | the result is the first save attempt not tagged as a goal and not the last row, or None when there is none |
| EndingChecker.SaveChecksIgnored | src/data/set_piece_ending_checker.py:418-433 | the save test is always truthy: an attempt without a save tag still fires the rule |
| EndingChecker.FirstRowWhere | src/data/set_piece_ending_checker.py:471-480 | fires iff some row matches, and then reports the first matching row's id |
| EndingChecker.Goal | src/data/set_piece_ending_checker.py:438-482 | fires iff a row carries tag 101, with the first such row's id |
| EndingChecker.Foul | src/data/set_piece_ending_checker.py:484-522 | fires iff a row has eventId 2, with the first such row's id |
| EndingChecker.Offsides | src/data/set_piece_ending_checker.py:524-561 | fires iff a row has eventId 6, with the first such row's id |
| EndingChecker.OutOfPlay | src/data/set_piece_ending_checker.py:563-601 | fires iff a row has subEventId 50, with the first such row's id |
| EndingChecker.AnotherSetPiece | src/data/set_piece_ending_checker.py:775-812 | fires iff a row has eventId 3, with the id of the row before the first one; when that is row 0 it wraps to the last row |
| EndingChecker.RegulationEnd | src/data/set_piece_ending_checker.py:632-692 | with no whistle row and an empty look-ahead it is an IndexError; with no whistle it fires iff the look-ahead changes match or period; the id is that of the row before the first match change when the match changes, which overrides a period change (lines 675-692), and otherwise of the row before the first period change |
| EndingChecker.EndOfRegulation | src/data/set_piece_ending_checker.py:603-694 | the loop returns exactly the specification function's result |
| EndingChecker.WhistleNeverEndsRegulation | src/data/set_piece_ending_checker.py:632-656 | any whistle row in the window makes the rule report None |
| EndingChecker.RegulationEndInLookAhead | src/data/set_piece_ending_checker.py:658-692 | a reported boundary is the id of some row of the look-ahead (not necessarily of the window) |
| EndingChecker.ClearanceScan | src/data/set_piece_ending_checker.py:737-771 | fails (IndexError) iff a clearance row has no end position; otherwise it reports a window row or keeps its previous value |
| EndingChecker.EffectiveClearance | src/data/set_piece_ending_checker.py:696-773 | the loop returns exactly the specification scan's result |
| EndingChecker.EffectiveClearanceIsLast | src/data/set_piece_ending_checker.py:737-771 | with no effective clearance the result is None; otherwise it is the boundary of the last one (the row before it) |
| EndingChecker.ClearanceScanIsLast | src/data/set_piece_ending_checker.py:737-771 | from any row on, the scan keeps its value when no effective clearance follows and otherwise reports the row before the last one |
| EndingChecker.RunChecks | src/data/set_piece_ending_checker.py:154-163 | the battery fails iff the reset, save, regulation or clearance rule raises (the reset rule's error first); otherwise it yields one result per rule, in the fixed `checks` order: possession, reset, save, goal, foul, offsides, out of play, regulation, clearance, another set piece |
| EndingChecker.EvaluateChecks | src/data/set_piece_ending_checker.py:154-163 | the loop over the rules produces exactly the battery's result |
| EndingChecker.RuleIdsInWindow | src/data/set_piece_ending_checker.py:154-163 | every rule's boundary is a window row's id, except end of regulation, whose boundary is a look-ahead row's id |
| Extractor.RestartRows | src/data/set_piece_extractor.py:95 | keeps exactly the restart rows (eventId 3) |
| Extractor.RestartRowsKeepOrder | src/data/set_piece_extractor.py:95-97 | the restart filter keeps the log's order |
| Extractor.InitiatingEvents | src/data/set_piece_extractor.py:34-103 | succeeds iff the normalised return type is "list" or "dataframe" (ValueError otherwise), with the restart ids or the restart rows |
| Extractor.DefaultListsRestartIds | src/data/set_piece_extractor.py:95-101 | by default the result is the ids of the restart rows |
| Extractor.SequenceGenerator | src/data/set_piece_extractor.py:106-199 | a non-positive start id is an AssertionError; otherwise an error of the rule battery is passed on, and a successful battery's results are cut by CutAtFirstFired; a result is a non-empty prefix of the window whose times never decrease |
| Extractor.CutAtFirstFired | src/data/set_piece_extractor.py:166-199 | no fired rule is an AssertionError; every error is an AssertionError or a TypeError; a result is a non-empty prefix of the window with non-decreasing times, ending at the first row carrying the first fired rule's id and holding no earlier row with that id |
| Extractor.CutFailsOnAbsentId | src/data/set_piece_extractor.py:182-188 | a first fired id that no window row carries makes the cut a TypeError |
| Extractor.CutFromPrefix | src/data/set_piece_extractor.py:182-199 | any non-empty window prefix of non-decreasing times that ends at the first fired rule's id is exactly the result |
| Extractor.CutAtPrefix | src/data/set_piece_extractor.py:182-199 | a prefix of non-decreasing times ending at the first row with the first fired rule's id is exactly the result |
| Extractor.CutSucceedsIff | src/data/set_piece_extractor.py:166-199 | the cut succeeds iff some non-empty prefix of the window has non-decreasing times and ends at the first fired rule's id |
| Extractor.NoRuleFiredFails | src/data/set_piece_extractor.py:166-180 | when no rule fires, generation fails with AssertionError |
| Extractor.GeneratedSequenceEndsAtFirstFiredRule | src/data/set_piece_extractor.py:182-193 | the sequence ends at the first row carrying the id reported by the first firing rule in `checks` order |
| Extractor.NonDecreasingIsOrdered | src/data/set_piece_extractor.py:195 | non-decreasing adjacent times give ordered times for any two rows |
| Extractor.ResumeAfter | src/data/set_piece_extractor.py:264-266 | succeeds iff 218217861 is among the ids (IndexError otherwise), with the ids after its first occurrence |
| Extractor.GenerateAll | src/data/set_piece_extractor.py:316-319 | one sequence per id, in order, each the generator's result; fails iff some id's generation fails |
| Extractor.LabelEpisodes | src/data/set_piece_extractor.py:321-327 | every row's label lies in first..first+n-1 |
| Extractor.Label | src/data/set_piece_extractor.py:321-327 | every row of one sequence carries that sequence's label |
| Extractor.LabelledTableIsConcatenation | src/data/set_piece_extractor.py:321-329 | the labelled table has as many rows as the sequences together and, without labels, is their concatenation |
| Extractor.SequenceLabels | src/data/set_piece_extractor.py:321-329 | the k-th row of the i-th sequence sits after the earlier sequences' rows, labelled first + i |
| Extractor.Compile | src/data/set_piece_extractor.py:202-331 | missing resume id is IndexError; otherwise it succeeds iff every sequence is generated and there is at least one (a generation error is passed on, an empty list makes the concatenation at line 321 a ValueError); a result is the generated sequences labelled 1..n in order (LabelEpisodes, whose rows Extractor.SequenceLabels places), so it has their total length and, without labels, is their concatenation |
| Features.SlotOf | src/data/feature_engineering.py:106 | only GK, MD, DF and FW have a slot, each below 4 |
| Features.SlotsIdentifyPositions | src/data/feature_engineering.py:106 | different positions never share a slot |
| Features.PositionEngineer | src/data/feature_engineering.py:93-121 | with the corrected position lookup: id 0 gives four zeros; otherwise a lookup error is passed on, a position without slot is a TypeError, and a known position gives a one-hot vector at its slot |
| Features.OneHotCounts | src/data/feature_engineering.py:116-121 | a one-hot vector has exactly one 1, and its ones and zeros together fill it |
| Features.ZeroCounts | src/data/feature_engineering.py:119-121 | the all-zero vector has no 1 and only zeros |
| Features.AsWrittenLookupHasNoSlot | src/data/feature_engineering.py:109-112 | with the lookup as written, a known player's position never has a slot |
| Features.PeriodOffset | src/data/feature_engineering.py:341-355 | the first half and any unknown period add nothing |
| Features.TimeInMatch | src/data/feature_engineering.py:278-357 | the accumulation gives the match clock: (eventSec + period offset) / 5400 |
| Features.PeriodsFollowEachOther | src/data/feature_engineering.py:341-355 | each period's offset is the previous one's offset plus that period's length |
| Features.MatchClockMonotone | src/data/feature_engineering.py:341-357 | within the periods' lengths, a later moment never has a smaller clock |
| Features.OffsetsIncrease | src/data/feature_engineering.py:341-355 | offsets grow in period order |
| Features.RegulationClockInUnitInterval | src/data/feature_engineering.py:340-357 | in regulation time the clock lies in [0, 1], reaching 1 at the end of the second half |
| Features.AddedTimeOverlapsSecondHalf | src/data/feature_engineering.py:344-347 | first-half added time gives a later clock than the start of the second half |
| Features.Digit | src/data/feature_engineering.py:447-453 | `int` of one character succeeds iff it is a digit 0-9; otherwise ValueError |
| Features.ScoreDifferential | src/data/feature_engineering.py:445-455 | an unknown side leaves the scores unbound, an empty score is an IndexError, and a result in [-9, 9] is first minus last character for the away side |
| Features.HomeNegatesAway | src/data/feature_engineering.py:445-455 | for the same score the home differential is the negation of the away one, and both fail together |
| Features.SingleDigitScores | src/data/feature_engineering.py:445-450 | for a score "a-b" the away side gets a - b |
| Features.TwoDigitScoreMisread | src/data/feature_engineering.py:445-450 | a two-digit score is misread: "10-2" gives the away side -1 |
| Features.CumulativeAttacks | src/data/feature_engineering.py:521-522 | one running count per row, at most the rows so far |
| Features.CumulativeAttacksCount | src/data/feature_engineering.py:521-522 | the running count at i is the number of team rows among 0..i |
| Features.AttackShares | src/data/feature_engineering.py:521-526 | one share per row, each in [0, 1] |
| Features.Share | src/data/feature_engineering.py:523-526 | a count over a larger total lies in [0, 1] |
| Features.NumAttackingEvents | src/data/feature_engineering.py:461-532 | empty is IndexError; not starting with event 3 or 5, or several sequence ids, is ValueError; a result has one share in [0, 1] per row |
| Features.AttackSharesCount | src/data/feature_engineering.py:521-526 | share i is the team's rows among 0..i over i + 1 |
| Features.AttackingShareMeaning | src/data/feature_engineering.py:517-526 | share i is the initiating team's rows among 0..i over i + 1 |
| Features.FirstShareIsOne | src/data/feature_engineering.py:517-526 | the first share is 1 |
| Features.LastShareIsOverall | src/data/feature_engineering.py:529-530 | the last share is the attacking rows over all rows |
| Teams.WordLength | src/data/team_data.py:213 | the leading run of non-whitespace ends at whitespace or the end |
| Teams.Words | src/data/team_data.py:213 | `split()` yields only non-empty words without whitespace |
| Teams.WordsOfJoin | src/data/team_data.py:212-214 | splitting words joined by single spaces gives the words back |
| Teams.WordsOfWord | src/data/team_data.py:213 | a word followed by whitespace or nothing is split off whole |
| Teams.NormalizeName | src/data/team_data.py:212-214 | the normalised name's words are the input's words other than "fc", in order |
| Teams.NormalizeNameIdempotent | src/data/team_data.py:212-214 | the normalised name has no "fc" word and normalising again changes nothing |
| Teams.OnlyFcNormalizesToEmpty | src/data/team_data.py:212-214 | a name made only of "FC" words normalises to the empty string |
| Teams.Acronym | src/data/team_data.py:215-217 | the acronym holds exactly the name's capitals and is no longer than the name |
| Teams.AcronymAppend | src/data/team_data.py:215-217 | the acronym of two joined pieces is their acronyms joined, so the capitals keep the name's order |
| Teams.AcronymOfLetter | src/data/team_data.py:155-160 | a single letter contributes itself exactly when it is upper case |
| Teams.LoadTeam | src/data/team_data.py:155-160 | the stored acronym column is the acronym of the normalised name, other columns unchanged |
| Teams.Candidates | src/data/team_data.py:220-237 | the candidates are exactly the rows matching by name, accent-free name or (for an acronym longer than one letter) acronym |
| Teams.Keys | src/data/team_data.py:239-241 | the de-duplication columns of each candidate, in order |
| Teams.SingleKeyCoversMatches | src/data/team_data.py:239-266 | one distinct key among the candidates means some row matches and every matching row has that key |
| Teams.UniqueMatchHasSingleKey | src/data/team_data.py:239-266 | matching rows that agree on the key columns leave exactly one distinct key |
| Teams.UniqueMatchIffSingleKey | src/data/team_data.py:239-266 | de-duplication leaves exactly one row iff some row matches and all matching rows agree on the key columns |
| Teams.TeamIdExtractor | src/data/team_data.py:172-266 | succeeds iff there is a unique match, then with an id every matching row carries; otherwise ValueError |
| Teams.ShortAcronymIgnored | src/data/team_data.py:225-237 | a one-letter acronym adds no candidates |
| Teams.AcronymFindsLoadedTeam | src/data/team_data.py:155-160 | a loaded team whose acronym equals the input's (of two letters or more) is found by acronym |
| ClusterPrep.PredictionIds | src/visualizations/cluster_bar_chart_prep.py:89-91 | the predictions' sequence ids, in order |
| ClusterPrep.EventIds | src/visualizations/cluster_bar_chart_prep.py:92 | the events' sequence ids, in order |
| ClusterPrep.ClusterSeqIds | src/visualizations/cluster_bar_chart_prep.py:89-91 | exactly the sequence ids predicted in the cluster, as many as there are such predictions |
| ClusterPrep.Gather | src/visualizations/cluster_bar_chart_prep.py:92-94 | `.loc[ids]` keeps exactly the events of the given sequence ids |
| ClusterPrep.GatherIsFilter | src/visualizations/cluster_bar_chart_prep.py:92-94 | for distinct ids, `.loc[ids]` holds every table row of those ids exactly once (as a multiset, the table filtered by the ids) |
| ClusterPrep.ClusterEventsExtractor | src/visualizations/cluster_bar_chart_prep.py:35-104 | KeyError iff nothing is predicted in the cluster or a chosen id has no events; otherwise AssertionError, or a table whose rows are exactly the events of the sequences predicted in the cluster (ClusterPrep.ExtractedRowsOfCluster adds that each appears once) |
| ClusterPrep.ChosenIdMissing | src/visualizations/cluster_bar_chart_prep.py:89-94 | a chosen id lacks events iff some prediction in the cluster names a sequence without events |
| ClusterPrep.DistinctIndexExtracts | src/visualizations/cluster_bar_chart_prep.py:97-99 | with a unique prediction index, every predicted sequence present and the cluster predicted at least once, the extraction succeeds |
| ClusterPrep.GatheredIdsCover | src/visualizations/cluster_bar_chart_prep.py:92-99 | when every id has events, the gathered rows carry exactly those ids |
| ClusterPrep.ExtractedRowsOfCluster | src/visualizations/cluster_bar_chart_prep.py:89-104 | a successful extraction had distinct cluster ids, so it holds each row of a sequence predicted in the cluster exactly once |
| ClusterPrep.ChosenIdsDistinct | src/visualizations/cluster_bar_chart_prep.py:89-91 | a unique prediction index gives distinct cluster ids |
| ClusterPrep.TallyLabels | src/visualizations/cluster_bar_chart_prep.py:157-158 | the label column of a count table, in order |
| ClusterPrep.ValueCounts | src/visualizations/cluster_bar_chart_prep.py:150-153 | one row per distinct label, with its number of occurrences |
| ClusterPrep.Missing | src/visualizations/cluster_bar_chart_prep.py:159-162 | exactly the universe's labels not counted, without repetitions |
| ClusterPrep.Zeros | src/visualizations/cluster_bar_chart_prep.py:166-169 | one zero-count row per missing label, in order |
| ClusterPrep.CompleteCounts | src/visualizations/cluster_bar_chart_prep.py:150-175 | the only error is AssertionError; a result has distinct labels, names every label that occurs, and each row's count is its label's number of occurrences |
| ClusterPrep.CountsRightAppend | src/visualizations/cluster_bar_chart_prep.py:171-173 | concatenating two correct count tables gives a correct one |
| ClusterPrep.CompletedTallies | src/visualizations/cluster_bar_chart_prep.py:154-175 | counted plus zero rows have distinct labels and correct counts |
| ClusterPrep.ZerosCounted | src/visualizations/cluster_bar_chart_prep.py:166-169 | a zero row for a label that never occurs is correct |
| ClusterPrep.MissingCovers | src/visualizations/cluster_bar_chart_prep.py:163-164 | with labels inside the universe, missing plus present equals the universe's size and covers exactly the universe |
| ClusterPrep.CompleteCountsCovers | src/visualizations/cluster_bar_chart_prep.py:154-175 | with labels inside the universe, completion succeeds with one row per universe label |
| ClusterPrep.NothingMissing | src/visualizations/cluster_bar_chart_prep.py:174-175 | when every label is present, the counts are left as they are |
| ClusterPrep.MissingAppended | src/visualizations/cluster_bar_chart_prep.py:171-173 | otherwise the zero rows are appended after the counts |
| ClusterPrep.CompletedLabels | src/visualizations/cluster_bar_chart_prep.py:171-173 | the completed label column is the present labels followed by the missing ones |
| ClusterPrep.TallyLabelsAppend | src/visualizations/cluster_bar_chart_prep.py:171-173 | the label column of two appended count tables is the two label columns appended |
| ClusterPrep.CountAbsent | src/visualizations/cluster_bar_chart_prep.py:166-169 | a label that never occurs has count 0 |
| ClusterPrep.Shares | src/visualizations/cluster_bar_chart_prep.py:177-178 | each row keeps its label and count and gets count / total |
| ClusterPrep.SharesSum | src/visualizations/cluster_bar_chart_prep.py:177-178 | the shares sum to the counts' sum over the total |
| ClusterPrep.LabelLeTotal | src/visualizations/cluster_bar_chart_prep.py:179-181 | any two labels are ordered one way or the other |
| ClusterPrep.Insert | src/visualizations/cluster_bar_chart_prep.py:179-181 | inserting into a sorted table keeps it sorted and adds exactly that row |
| ClusterPrep.SortByLabel | src/visualizations/cluster_bar_chart_prep.py:179-181 | the sort yields a permutation of the rows ordered by label |
| ClusterPrep.InsertSum | src/visualizations/cluster_bar_chart_prep.py:179-181 | inserting a row adds its share to the sum |
| ClusterPrep.SortKeepsSum | src/visualizations/cluster_bar_chart_prep.py:179-181 | sorting keeps the sum of shares |
| ClusterPrep.CountsTable | src/visualizations/cluster_bar_chart_prep.py:146-181 | the only error is AssertionError, and after a completion it occurs iff the column is empty; a table is sorted by label, names each label once, counts each label's occurrences, gives each row the share count / number of rows, and its shares sum to 1 |
| ClusterPrep.SumCountsOfRightTallies | src/visualizations/cluster_bar_chart_prep.py:177-178 | tallies that count right add up to their labels' occurrences |
| ClusterPrep.SumCountOfNothing | src/visualizations/cluster_bar_chart_prep.py:177-178 | an empty column has no occurrences |
| ClusterPrep.SumCountOfFirst | src/visualizations/cluster_bar_chart_prep.py:177-178 | the first row of the column adds how often the names hold its label |
| ClusterPrep.CountOfDistinct | src/visualizations/cluster_bar_chart_prep.py:150-175 | a label listed once among distinct labels is counted once |
| ClusterPrep.SumCountOfCovering | src/visualizations/cluster_bar_chart_prep.py:150-178 | distinct labels that cover the column account for all its rows |
| ClusterPrep.CompletedTotal | src/visualizations/cluster_bar_chart_prep.py:150-178 | the completed counts sum to the number of rows, so `count.sum()` is the column length |
| ClusterPrep.SharesUnique | src/visualizations/cluster_bar_chart_prep.py:177-178 | normalising tallies with distinct labels gives rows with unique labels |
| ClusterPrep.UniqueCons | src/visualizations/cluster_bar_chart_prep.py:179-181 | a row whose label the others lack can go in front of them |
| ClusterPrep.InsertUnique | src/visualizations/cluster_bar_chart_prep.py:179-181 | inserting a row with a new label keeps the labels unique |
| ClusterPrep.SortUnique | src/visualizations/cluster_bar_chart_prep.py:179-181 | sorting keeps the labels unique |
| ClusterPrep.SharesSumToOne | src/visualizations/cluster_bar_chart_prep.py:177-181 | with a positive total, the sorted shares sum to 1 |
| ClusterPrep.WholeShare | src/visualizations/cluster_bar_chart_prep.py:177-178 | a positive total over itself is 1 |
| ClusterPrep.SortKeepsCounts | src/visualizations/cluster_bar_chart_prep.py:177-181 | normalising and sorting keep each label's count and its share count / total |
| ClusterPrep.CountsTableCovers | src/visualizations/cluster_bar_chart_prep.py:146-181 | with some events and labels inside the universe, the table succeeds with one row per universe label: as many rows as distinct universe labels, and a label names a row iff it is in the universe |
| ClusterPrep.SortKeepsNames | src/visualizations/cluster_bar_chart_prep.py:171-181 | the normalised, sorted rows are named by exactly the tallies' labels |
| ClusterPrep.TallySorted | src/visualizations/cluster_bar_chart_prep.py:171-181 | every tally's label names some sorted row |
| ClusterPrep.SortedRowTallied | src/visualizations/cluster_bar_chart_prep.py:171-181 | every sorted row is named by some tally's label |
| ClusterPrep.CountedLabelTotal | src/visualizations/cluster_bar_chart_prep.py:177-178 | with at least one event the counts' total is positive |
| ClusterPrep.CountOfPresent | src/visualizations/cluster_bar_chart_prep.py:150 | a label that occurs has a positive count |
| ClusterPrep.PositiveSummand | src/visualizations/cluster_bar_chart_prep.py:177-178 | a positive count makes the total positive |
| ClusterPrep.ClusterCounts | src/visualizations/cluster_bar_chart_prep.py:106-260 | succeeds iff both the event table and the sub-event table do, and then returns exactly those two tables (so each is sorted, is named by exactly the universe's labels when its column's labels lie in the universe, names each label once, has shares count / rows summing to 1) |
| ContourPrep.StartPoint | src/visualizations/contour_position_prep.py:73-87 | succeeds iff there are one or two positions (AssertionError otherwise); a point inside 0..100 percent lands on the 104 x 68 m pitch |
| ContourPrep.StartPointInverts | src/visualizations/contour_position_prep.py:78-85 | converting back to percent gives the recorded position |
| ContourPrep.EndPosition | src/visualizations/contour_position_prep.py:143-149 | the end position is the second recorded position, or the first when there is only one |
| ContourPrep.EndPointAsWritten | src/visualizations/contour_position_prep.py:135-156 | as written: succeeds iff there are one or two positions (AssertionError otherwise), with x left in percent and y scaled by 69/100 |
| ContourPrep.StationaryEventMovesAsWritten | src/visualizations/contour_position_prep.py:151-154 | as written, an event at (50, 50) starts at (52, 34) and ends at (50, 34.5) |
| ContourPrep.EndPoint | src/visualizations/contour_position_prep.py:135-156 | corrected: succeeds iff there are one or two positions (AssertionError otherwise) |
| ContourPrep.EndPointMatchesStartScale | src/visualizations/contour_position_prep.py:143-154 | corrected: the end point is the start point of the end position, so a one-position event ends where it starts |

## Left out

- Windows and scores are inputs, not computed. The event window, the 10-event look-ahead, the score at an event and the clubs' home/away sides are parameters. `ct.subsequent_play_generator`, `ct.score_compiler`, `ct.EVENTS_DF` and `ct.MATCHES_DF` are not part of this model.
- The module-level `check.*_checker` functions called by the generator are not part of this model. Generation runs the ten rules of `SetPieceChecker` in their `checks` order instead.
- The player table is a sequence of player rows with a role map. Reading it from disk is not modelled.
- The compiler's backup branch (HDF file writing and the `None` result) is file I/O.
- Floating point: `eventSec`, the clock, the shares and the pitch coordinates are exact reals. `np.isclose(sum, 1)` is proved as exact equality.
- The clearance rule's distance test is stated on squared distances (dx² + dy² ≥ 3600) instead of a square root.
- `delta_distance_engineer`, `delta_goal_distance_engineer` and `basic_instance_features` are left out: square-root distances and pandas orchestration.
- Plotting and numeric libraries are left out: `cluster_positions_binning`, `cluster_positions_extractor`, the visualisation modules, the clustering and prediction models, and the base64 helper.
- `team_data_loader`'s file reading is left out. So are its accent decoding (`json.loads`) and `unidecode`: the loaded names arrive as inputs.
- Every window row is required to carry at least one position. The source indexes `positions[0]` without a guard, so the model does not capture what happens when a row has none.
- Text: `lower()` is modelled for ASCII letters, and `isupper()` for ASCII and Latin-1 capitals. Whitespace is the ASCII set `str.split()` uses. Unicode case mapping is not modelled.
- Features.Digit: `int()` is modelled on the ASCII digits only. Python also accepts other Unicode decimal digits.
- Missing columns (the `AttributeError`/`ValueError` raised when a row lacks a column) cannot occur for a typed record and are not modelled.
- The index handling of `feat_pred_df` (`set_index("seq_id")`) is not modelled. Predictions are given as (sequence id, cluster) pairs.
- `value_counts` is modelled without its decreasing-count row order: Dedup fixes no order among the distinct labels. Only the counts are modelled, and the rows are sorted by label afterwards.
- EndingChecker.AttackReset: the rule reads positions through the corrected lookup (CommonTasks.PlayerPosition). As written, `player_position` yields None for every known player, so the DEF/GKP branch (src/data/set_piece_ending_checker.py:300-303) never fires and only the back-zone test marks a reset. EndingChecker.AttackResetIsLastReset, EndingChecker.ResetScanIsLast and EndingChecker.AttackResetFailsOnUnknownPlayer, and through them EndingChecker.RunChecks, Extractor.SequenceGenerator and Extractor.Compile, describe the corrected behaviour.
- EndingChecker.AttackResetIsLastReset: stated for the corrected lookup; with the lookup as written a defender's or goalkeeper's row outside the back zone does not qualify.
- EndingChecker.ResetScanIsLast: stated for the corrected lookup, like EndingChecker.AttackResetIsLastReset.
- Features.PositionEngineer: uses the corrected lookup. As written, the lookup yields None, and `position_engineer` raises TypeError for every player id other than 0 (Features.AsWrittenLookupHasNoSlot).
- EndingChecker.RunEndsBeforeRun: the boundary is proved only when the run's first id does not occur earlier in the window. Otherwise `first_valid_index` picks the earlier row, and the model's RunBoundary follows the source there too.
- ClusterPrep.CompleteCounts: the AssertionError branch is not characterised. The lemmas prove the converse direction only: with labels inside the universe, completion succeeds.
- ClusterPrep.ClusterEventsExtractor: the contract does not say exactly when the count assertion fails. ClusterPrep.DistinctIndexExtracts proves that it holds whenever the prediction index is unique.

## Findings

| source | as written | input that shows it | evidently intended | confidence | as-written member | corrected member |
|---|---|---|---|---|---|---|
| src/data/common_tasks.py:141 | the column is looked up with the literal string "normed_notation", so the extracted position is always None | player 7 with role {code3: "DEF"}, notation "three": yields None instead of "DEF" | look up `notation_mapper[normed_notation]` | high, not executed | CommonTasks.AsWrittenLookupLosesPosition | CommonTasks.PlayerPosition |
| src/visualizations/contour_position_prep.py:151-154 | the end point leaves x in percent and scales y by 69/100, unlike the start point's 104/100 and 68/100 | an event recorded only at (50, 50) starts at (52, 34) but ends at (50, 34.5) | scale the end point like the start point | high, not executed | ContourPrep.StationaryEventMovesAsWritten | ContourPrep.EndPointMatchesStartScale |

=== FILE: cluster_bar_chart_prep.dfy ===
/** Bar-chart preparation of src/visualizations/cluster_bar_chart_prep.py:
    the rows of one predicted cluster, then per-label counts completed
    with the labels that never occur, normalised to shares and sorted by
    label name. */
module ClusterPrep {
  import opened Wrappers
  import opened Seqs

  // ---------------------------------------------------------------------
  // cluster_events_extractor
  // ---------------------------------------------------------------------

  /** A row of the model's output table: a sequence and its predicted cluster. */
  datatype Prediction = Prediction(seqId: int, clusterId: int)

  /** A row of the compiled sequence table, with the columns the charts use. */
  datatype ClusterEvent = ClusterEvent(seqId: int, eventId: int, eventName: string, subEventId: int, subEventName: string)

  function PredictionIds(ps: seq<Prediction>): (r: seq<int>)
    ensures |r| == |ps|
    ensures forall k :: 0 <= k < |ps| ==> r[k] == ps[k].seqId
  {
    seq(|ps|, k requires 0 <= k < |ps| => ps[k].seqId)
  }

  function EventIds(rows: seq<ClusterEvent>): (r: seq<int>)
    ensures |r| == |rows|
    ensures forall k :: 0 <= k < |rows| ==> r[k] == rows[k].seqId
  {
    seq(|rows|, k requires 0 <= k < |rows| => rows[k].seqId)
  }

  function InCluster(clusterId: int): Prediction -> bool {
    (p: Prediction) => p.clusterId == clusterId
  }

  /** The sequence ids predicted to be in the cluster, in table order. */
  function ClusterSeqIds(predictions: seq<Prediction>, clusterId: int): (r: seq<int>)
    ensures |r| == CountWhere(predictions, InCluster(clusterId))
    ensures forall id :: id in r <==> exists k :: 0 <= k < |predictions| && predictions[k] == Prediction(id, clusterId)
  {
    var chosen := Filter(predictions, InCluster(clusterId));
    var r := PredictionIds(chosen);
    assert forall id :: id in r <==> Prediction(id, clusterId) in chosen by {
      forall id ensures id in r <==> Prediction(id, clusterId) in chosen {
        if id in r {
          var k :| 0 <= k < |r| && r[k] == id;
          assert chosen[k] in chosen;
        }
        if Prediction(id, clusterId) in chosen {
          var k :| 0 <= k < |chosen| && chosen[k] == Prediction(id, clusterId);
          assert r[k] == id;
        }
      }
    }
    r
  }

  /** `loc[ids]`: for each id in turn, every table row carrying it. */
  function Gather(sequences: seq<ClusterEvent>, ids: seq<int>): (r: seq<ClusterEvent>)
    ensures forall e :: e in r <==> e in sequences && e.seqId in ids
  {
    if |ids| == 0 then []
    else Filter(sequences, HasId(ids[0])) + Gather(sequences, ids[1..])
  }

  function HasId(id: int): ClusterEvent -> bool {
    (e: ClusterEvent) => e.seqId == id
  }

  function InIds(ids: seq<int>): ClusterEvent -> bool {
    (e: ClusterEvent) => e.seqId in ids
  }

  /** For distinct ids, `loc[ids]` holds each table row of those ids exactly
      once: as a multiset it is the table filtered by the ids. */
  lemma {:induction false} GatherIsFilter(sequences: seq<ClusterEvent>, ids: seq<int>)
    requires Distinct(ids)
    ensures multiset(Gather(sequences, ids)) == multiset(Filter(sequences, InIds(ids)))
  {
    if |ids| == 0 {
      FilterRejectsAll(sequences, InIds(ids));
    } else {
      var rest := ids[1..];
      assert Distinct(rest);
      GatherIsFilter(sequences, rest);
      assert ids == [ids[0]] + rest;
      assert ids[0] !in rest;
      FilterUnion(sequences, HasId(ids[0]), InIds(rest), InIds(ids));
    }
  }

  predicate Present(sequences: seq<ClusterEvent>, id: int) {
    exists k :: 0 <= k < |sequences| && sequences[k].seqId == id
  }

  /** `cluster_events_extractor`: the rows of every sequence predicted in the
      cluster; a predicted id missing from the table, or a cluster nothing
      is predicted in (no entry in `value_counts()`), raises KeyError, and
      the check that each predicted sequence contributes one distinct id
      raises AssertionError. */
  function ClusterEventsExtractor(predictions: seq<Prediction>, sequences: seq<ClusterEvent>, clusterId: int): (r: Result<seq<ClusterEvent>>)
    ensures r.Err? ==> r.error == KeyError || r.error == AssertionError
    ensures r.Err? && r.error == KeyError <==>
              (forall k :: 0 <= k < |predictions| ==> predictions[k].clusterId != clusterId) ||
              exists k :: 0 <= k < |predictions| && predictions[k].clusterId == clusterId &&
                          !Present(sequences, predictions[k].seqId)
    ensures r.Ok? ==> forall e :: e in r.value <==>
              e in sequences && Prediction(e.seqId, clusterId) in predictions
  {
    var ids := ClusterSeqIds(predictions, clusterId);
    ChosenIdMissing(predictions, sequences, clusterId);
    if exists k :: 0 <= k < |ids| && !Present(sequences, ids[k]) then
      Err(KeyError)
    else
      var rows := Gather(sequences, ids);
      if |ids| == 0 then Err(KeyError)
      else if CountWhere(predictions, InCluster(clusterId)) != |Dedup(EventIds(rows))| then Err(AssertionError)
      else Ok(rows)
  }

  /** A chosen id has no events exactly when some prediction in the cluster
      names a sequence that has none. */
  lemma ChosenIdMissing(predictions: seq<Prediction>, sequences: seq<ClusterEvent>, clusterId: int)
    ensures var ids := ClusterSeqIds(predictions, clusterId);
            (exists k :: 0 <= k < |ids| && !Present(sequences, ids[k])) <==>
            exists k :: 0 <= k < |predictions| && predictions[k].clusterId == clusterId &&
                        !Present(sequences, predictions[k].seqId)
  {
    var ids := ClusterSeqIds(predictions, clusterId);
    if exists k :: 0 <= k < |ids| && !Present(sequences, ids[k]) {
      var k :| 0 <= k < |ids| && !Present(sequences, ids[k]);
      assert ids[k] in ids;
      var j :| 0 <= j < |predictions| && predictions[j] == Prediction(ids[k], clusterId);
    }
    if exists k :: 0 <= k < |predictions| && predictions[k].clusterId == clusterId &&
                   !Present(sequences, predictions[k].seqId) {
      var k :| 0 <= k < |predictions| && predictions[k].clusterId == clusterId &&
               !Present(sequences, predictions[k].seqId);
      assert predictions[k] == Prediction(predictions[k].seqId, clusterId);
      var j :| 0 <= j < |ids| && ids[j] == predictions[k].seqId;
    }
  }

  /** When the prediction table is indexed by distinct sequence ids, every
      predicted sequence is in the sequence table and the cluster is
      predicted at least once, the extraction succeeds. */
  lemma DistinctIndexExtracts(predictions: seq<Prediction>, sequences: seq<ClusterEvent>, clusterId: int)
    requires Distinct(PredictionIds(predictions))
    requires forall k :: 0 <= k < |predictions| ==> Present(sequences, predictions[k].seqId)
    requires exists k :: 0 <= k < |predictions| && predictions[k].clusterId == clusterId
    ensures ClusterEventsExtractor(predictions, sequences, clusterId).Ok?
  {
    var ids := ClusterSeqIds(predictions, clusterId);
    var p :| 0 <= p < |predictions| && predictions[p].clusterId == clusterId;
    assert predictions[p] == Prediction(predictions[p].seqId, clusterId);
    assert predictions[p].seqId in ids;
    ChosenIdMissing(predictions, sequences, clusterId);
    GatheredIdsCover(sequences, ids);
    var rows := Gather(sequences, ids);
    ChosenIdsDistinct(predictions, clusterId);
    DedupCardinality(EventIds(rows));
    DistinctCardinality(ids);
  }

  /** When every id has events, the gathered rows carry exactly those ids. */
  lemma GatheredIdsCover(sequences: seq<ClusterEvent>, ids: seq<int>)
    requires forall k :: 0 <= k < |ids| ==> Present(sequences, ids[k])
    ensures ToSet(EventIds(Gather(sequences, ids))) == ToSet(ids)
  {
    var rows := Gather(sequences, ids);
    forall id | id in ToSet(ids) ensures id in ToSet(EventIds(rows)) {
      var j :| 0 <= j < |ids| && ids[j] == id;
      var m :| 0 <= m < |sequences| && sequences[m].seqId == id;
      assert sequences[m] in rows;
      var i :| 0 <= i < |rows| && rows[i] == sequences[m];
      assert EventIds(rows)[i] == id;
    }
    forall id | id in ToSet(EventIds(rows)) ensures id in ToSet(ids) {
      var i :| 0 <= i < |rows| && EventIds(rows)[i] == id;
      assert rows[i] in rows;
    }
  }

  /** A successful extraction had distinct cluster ids, so it holds each
      row of a sequence predicted in the cluster exactly once. */
  lemma ExtractedRowsOfCluster(predictions: seq<Prediction>, sequences: seq<ClusterEvent>, clusterId: int)
    requires ClusterEventsExtractor(predictions, sequences, clusterId).Ok?
    ensures Distinct(ClusterSeqIds(predictions, clusterId))
    ensures multiset(ClusterEventsExtractor(predictions, sequences, clusterId).value) ==
            multiset(Filter(sequences, InIds(ClusterSeqIds(predictions, clusterId))))
  {
    var ids := ClusterSeqIds(predictions, clusterId);
    var rows := Gather(sequences, ids);
    assert ClusterEventsExtractor(predictions, sequences, clusterId).value == rows;
    assert |ids| == |Dedup(EventIds(rows))|;
    GatheredIdsCover(sequences, ids);
    DedupCardinality(EventIds(rows));
    SetSizeBound(ids);
    GatherIsFilter(sequences, ids);
  }

  /** Choosing rows of a table with distinct ids keeps the ids distinct. */
  lemma {:induction false} ChosenIdsDistinct(predictions: seq<Prediction>, clusterId: int)
    requires Distinct(PredictionIds(predictions))
    ensures Distinct(ClusterSeqIds(predictions, clusterId))
  {
    if |predictions| > 0 {
      var tail := predictions[1..];
      assert PredictionIds(tail) == PredictionIds(predictions)[1..];
      ChosenIdsDistinct(tail, clusterId);
      var head := predictions[0];
      assert Filter(predictions, InCluster(clusterId)) ==
             (if head.clusterId == clusterId then [head] else []) + Filter(tail, InCluster(clusterId));
      var rest := ClusterSeqIds(tail, clusterId);
      if head.clusterId == clusterId {
        assert ClusterSeqIds(predictions, clusterId) == [head.seqId] + rest;
        assert head.seqId !in rest;
      } else {
        assert ClusterSeqIds(predictions, clusterId) == rest;
      }
    }
  }

  // ---------------------------------------------------------------------
  // cluster_counts
  // ---------------------------------------------------------------------

  /** A label and how often it occurs (`value_counts`). */
  datatype Tally = Tally(name: string, count: nat)

  /** A label, its count and the count's share of all counted rows. */
  datatype LabelCount = LabelCount(name: string, count: nat, share: real)

  function CountOf(labels: seq<string>, key: string): nat {
    CountWhere(labels, (x: string) => x == key)
  }

  function TallyLabels(ts: seq<Tally>): (r: seq<string>)
    ensures |r| == |ts|
    ensures forall k :: 0 <= k < |ts| ==> r[k] == ts[k].name
  {
    seq(|ts|, k requires 0 <= k < |ts| => ts[k].name)
  }

  /** `value_counts()`: one tally per distinct label, with its count. */
  function ValueCounts(labels: seq<string>): (r: seq<Tally>)
    ensures |r| == |Dedup(labels)|
    ensures forall k :: 0 <= k < |r| ==> r[k] == Tally(Dedup(labels)[k], CountOf(labels, Dedup(labels)[k]))
  {
    var present := Dedup(labels);
    seq(|present|, k requires 0 <= k < |present| => Tally(present[k], CountOf(labels, present[k])))
  }

  /** Not among the given labels. */
  function Absent(present: seq<string>): string -> bool {
    (l: string) => l !in present
  }

  /** `events_missing_list`: the universe's labels that were not counted. */
  function Missing(labels: seq<string>, universe: seq<string>): (r: seq<string>)
    ensures Distinct(r)
    ensures forall l :: l in r <==> l in universe && l !in labels
  {
    FilterDistinct(Dedup(universe), Absent(Dedup(labels)));
    Filter(Dedup(universe), Absent(Dedup(labels)))
  }

  function Zeros(missing: seq<string>): (r: seq<Tally>)
    ensures TallyLabels(r) == missing
    ensures forall k :: 0 <= k < |r| ==> r[k].count == 0
  {
    var r := seq(|missing|, k requires 0 <= k < |missing| => Tally(missing[k], 0));
    assert TallyLabels(r) == missing;
    r
  }

  /** The completion step: when fewer labels were counted than the label
      universe holds, the missing ones are appended with count 0; the
      check that missing and present labels make up the universe raises
      AssertionError otherwise. */
  function CompleteCounts(labels: seq<string>, universe: seq<string>): (r: Result<seq<Tally>>)
    ensures r.Err? ==> r.error == AssertionError
    ensures r.Ok? ==> CountsRight(r.value, labels)
    ensures r.Ok? ==> Distinct(TallyLabels(r.value))
    ensures r.Ok? ==> forall l :: l in labels ==> l in TallyLabels(r.value)
  {
    var counted := ValueCounts(labels);
    if |Dedup(labels)| != |Dedup(universe)| then
      var missing := Missing(labels, universe);
      if |missing| + |Dedup(labels)| != |Dedup(universe)| then Err(AssertionError)
      else
        CompletedTallies(labels, universe);
        CompletedLabels(labels, universe);
        Ok(counted + Zeros(missing))
    else
      assert TallyLabels(counted) == Dedup(labels);
      Ok(counted)
  }

  /** Every tally counts its label's occurrences. */
  predicate CountsRight(ts: seq<Tally>, labels: seq<string>) {
    forall k :: 0 <= k < |ts| ==> ts[k].count == CountOf(labels, ts[k].name)
  }

  lemma CountsRightAppend(a: seq<Tally>, b: seq<Tally>, labels: seq<string>)
    requires CountsRight(a, labels) && CountsRight(b, labels)
    ensures CountsRight(a + b, labels)
  {
    assert forall k :: |a| <= k < |a + b| ==> (a + b)[k] == b[k - |a|];
  }

  /** The completed tallies name each label once and count it correctly
      (missing labels do not occur, so their count 0 is right). */
  lemma CompletedTallies(labels: seq<string>, universe: seq<string>)
    ensures Distinct(TallyLabels(ValueCounts(labels) + Zeros(Missing(labels, universe))))
    ensures CountsRight(ValueCounts(labels) + Zeros(Missing(labels, universe)), labels)
  {
    CompletedLabels(labels, universe);
    DistinctConcat(Dedup(labels), Missing(labels, universe));
    ZerosCounted(labels, Missing(labels, universe));
    CountsRightAppend(ValueCounts(labels), Zeros(Missing(labels, universe)), labels);
  }

  /** Labels that do not occur are rightly counted 0. */
  lemma ZerosCounted(labels: seq<string>, missing: seq<string>)
    requires forall l :: l in missing ==> l !in labels
    ensures CountsRight(Zeros(missing), labels)
  {
    var zeros := Zeros(missing);
    forall k | 0 <= k < |zeros| ensures zeros[k].count == CountOf(labels, zeros[k].name) {
      assert TallyLabels(zeros)[k] == missing[k];
      assert missing[k] in missing;
      CountAbsent(labels, missing[k]);
    }
  }

  /** When every counted label belongs to the universe, present and missing
      labels together are the universe. */
  lemma MissingCovers(labels: seq<string>, universe: seq<string>)
    requires ToSet(labels) <= ToSet(universe)
    ensures |Missing(labels, universe)| + |Dedup(labels)| == |Dedup(universe)|
    ensures forall l :: l in Dedup(labels) + Missing(labels, universe) <==> l in universe
  {
    var present, u, missing := Dedup(labels), Dedup(universe), Missing(labels, universe);
    DistinctConcat(present, missing);
    DistinctCardinality(present + missing);
    forall l ensures l in present + missing <==> l in universe {
      if l in labels {
        assert l in ToSet(labels);
      }
    }
    assert ToSet(present + missing) == ToSet(u);
    DistinctCardinality(u);
  }

  /** With every counted label in the universe, completion succeeds and
      yields one tally per universe label. */
  lemma CompleteCountsCovers(labels: seq<string>, universe: seq<string>)
    requires ToSet(labels) <= ToSet(universe)
    ensures CompleteCounts(labels, universe).Ok?
    ensures |CompleteCounts(labels, universe).value| == |Dedup(universe)|
    ensures forall l :: l in TallyLabels(CompleteCounts(labels, universe).value) <==> l in universe
  {
    MissingCovers(labels, universe);
    if |Dedup(labels)| == |Dedup(universe)| {
      NothingMissing(labels, universe);
    } else {
      MissingAppended(labels, universe);
      CompletedLabels(labels, universe);
    }
  }

  /** All universe labels counted: the counts are the table. */
  lemma NothingMissing(labels: seq<string>, universe: seq<string>)
    requires |Dedup(labels)| == |Dedup(universe)|
    requires |Missing(labels, universe)| + |Dedup(labels)| == |Dedup(universe)|
    requires forall l :: l in Dedup(labels) + Missing(labels, universe) <==> l in universe
    ensures CompleteCounts(labels, universe) == Ok(ValueCounts(labels))
    ensures forall l :: l in TallyLabels(ValueCounts(labels)) <==> l in universe
  {
    assert TallyLabels(ValueCounts(labels)) == Dedup(labels);
    assert Dedup(labels) + Missing(labels, universe) == Dedup(labels);
  }

  /** Some universe labels not counted: they are appended with zeros. */
  lemma MissingAppended(labels: seq<string>, universe: seq<string>)
    requires |Dedup(labels)| != |Dedup(universe)|
    requires |Missing(labels, universe)| + |Dedup(labels)| == |Dedup(universe)|
    ensures CompleteCounts(labels, universe) == Ok(ValueCounts(labels) + Zeros(Missing(labels, universe)))
  {
  }

  /** The completed tallies carry the counted labels, then the missing ones. */
  lemma CompletedLabels(labels: seq<string>, universe: seq<string>)
    ensures TallyLabels(ValueCounts(labels) + Zeros(Missing(labels, universe))) == Dedup(labels) + Missing(labels, universe)
  {
    var counted, zeros := ValueCounts(labels), Zeros(Missing(labels, universe));
    assert TallyLabels(counted) == Dedup(labels);
    TallyLabelsAppend(counted, zeros);
  }

  lemma TallyLabelsAppend(a: seq<Tally>, b: seq<Tally>)
    ensures TallyLabels(a + b) == TallyLabels(a) + TallyLabels(b)
  {
    var l, r := TallyLabels(a + b), TallyLabels(a) + TallyLabels(b);
    forall k | 0 <= k < |l| ensures l[k] == r[k] {
      if k >= |a| {
        assert (a + b)[k] == b[k - |a|];
      }
    }
  }

  /** A label that does not occur is counted 0 times. */
  lemma {:induction false} CountAbsent(labels: seq<string>, key: string)
    requires key !in labels
    ensures CountOf(labels, key) == 0
  {
    if |labels| > 0 {
      assert key !in labels[1..];
      CountAbsent(labels[1..], key);
    }
  }

  // Normalisation

  function SumCounts(ts: seq<Tally>): nat {
    if |ts| == 0 then 0 else ts[0].count + SumCounts(ts[1..])
  }

  function SumShares(rows: seq<LabelCount>): real {
    if |rows| == 0 then 0.0 else rows[0].share + SumShares(rows[1..])
  }

  /** The occurrences of each of `names` in `labels`, added up. */
  function SumCountOf(names: seq<string>, labels: seq<string>): nat {
    if |names| == 0 then 0 else CountOf(labels, names[0]) + SumCountOf(names[1..], labels)
  }

  /** Tallies that count right add up to their labels' occurrences. */
  lemma {:induction false} SumCountsOfRightTallies(ts: seq<Tally>, labels: seq<string>)
    requires CountsRight(ts, labels)
    ensures SumCounts(ts) == SumCountOf(TallyLabels(ts), labels)
  {
    if |ts| > 0 {
      assert TallyLabels(ts)[1..] == TallyLabels(ts[1..]);
      SumCountsOfRightTallies(ts[1..], labels);
    }
  }

  /** No label, no occurrences. */
  lemma {:induction false} SumCountOfNothing(names: seq<string>)
    ensures SumCountOf(names, []) == 0
  {
    if |names| > 0 {
      SumCountOfNothing(names[1..]);
    }
  }

  /** Peeling the first label off adds how often the names hold it. */
  lemma {:induction false} SumCountOfFirst(names: seq<string>, labels: seq<string>)
    requires |labels| > 0
    ensures SumCountOf(names, labels) == CountOf(names, labels[0]) + SumCountOf(names, labels[1..])
  {
    if |names| > 0 {
      SumCountOfFirst(names[1..], labels);
      assert CountOf(labels, names[0]) == (if labels[0] == names[0] then 1 else 0) + CountOf(labels[1..], names[0]);
      assert CountOf(names, labels[0]) == (if names[0] == labels[0] then 1 else 0) + CountOf(names[1..], labels[0]);
    }
  }

  /** A name listed once among distinct names is counted once. */
  lemma {:induction false} CountOfDistinct(names: seq<string>, key: string)
    requires Distinct(names) && key in names
    ensures CountOf(names, key) == 1
  {
    var tail := names[1..];
    assert Distinct(tail);
    if names[0] == key {
      assert key !in tail;
      CountAbsent(tail, key);
    } else {
      assert key in tail;
      CountOfDistinct(tail, key);
    }
  }

  /** Distinct names that cover every label account for all of them. */
  lemma {:induction false} SumCountOfCovering(names: seq<string>, labels: seq<string>)
    requires Distinct(names)
    requires forall l :: l in labels ==> l in names
    ensures SumCountOf(names, labels) == |labels|
  {
    if |labels| == 0 {
      SumCountOfNothing(names);
    } else {
      assert labels[0] in labels;
      SumCountOfFirst(names, labels);
      CountOfDistinct(names, labels[0]);
      SumCountOfCovering(names, labels[1..]);
    }
  }

  /** The completed tallies add up to the number of counted rows. */
  lemma CompletedTotal(labels: seq<string>, universe: seq<string>)
    requires CompleteCounts(labels, universe).Ok?
    ensures SumCounts(CompleteCounts(labels, universe).value) == |labels|
  {
    var tallies := CompleteCounts(labels, universe).value;
    SumCountsOfRightTallies(tallies, labels);
    SumCountOfCovering(TallyLabels(tallies), labels);
  }

  /** `count / count.sum()` on every row. */
  function Shares(ts: seq<Tally>, total: nat): (r: seq<LabelCount>)
    requires total > 0
    ensures |r| == |ts|
    ensures forall k :: 0 <= k < |ts| ==> r[k] == LabelCount(ts[k].name, ts[k].count, ts[k].count as real / total as real)
  {
    if |ts| == 0 then [] else [LabelCount(ts[0].name, ts[0].count, ts[0].count as real / total as real)] + Shares(ts[1..], total)
  }

  /** The shares add up to the counts' total over `total`. */
  lemma {:induction false} SharesSum(ts: seq<Tally>, total: nat)
    requires total > 0
    ensures SumShares(Shares(ts, total)) == SumCounts(ts) as real / total as real
  {
    if |ts| > 0 {
      SharesSum(ts[1..], total);
      var rows := Shares(ts, total);
      assert rows[1..] == Shares(ts[1..], total);
      assert rows[0].share == ts[0].count as real / total as real;
      SumOverTotal(ts[0].count as real, SumCounts(ts[1..]) as real, total as real);
    }
  }

  lemma SumOverTotal(a: real, b: real, t: real)
    requires t > 0.0
    ensures a / t + b / t == (a + b) / t
  {
  }

  // Sorting by label (Python string order: code point by code point)

  predicate LabelLe(a: string, b: string) {
    if |a| == 0 then true
    else if |b| == 0 then false
    else if a[0] != b[0] then a[0] < b[0]
    else LabelLe(a[1..], b[1..])
  }

  lemma {:induction false} LabelLeTotal(a: string, b: string)
    ensures LabelLe(a, b) || LabelLe(b, a)
  {
    if |a| > 0 && |b| > 0 && a[0] == b[0] {
      LabelLeTotal(a[1..], b[1..]);
    }
  }

  predicate SortedByLabel(rows: seq<LabelCount>) {
    forall i :: 0 < i < |rows| ==> LabelLe(rows[i - 1].name, rows[i].name)
  }

  function Insert(x: LabelCount, s: seq<LabelCount>): (r: seq<LabelCount>)
    requires SortedByLabel(s)
    ensures SortedByLabel(r)
    ensures multiset(r) == multiset(s) + multiset{x}
    ensures |r| == |s| + 1
    ensures r[0] == x || (|s| > 0 && r[0] == s[0])
  {
    if |s| == 0 then [x]
    else if LabelLe(x.name, s[0].name) then [x] + s
    else
      LabelLeTotal(x.name, s[0].name);
      var rest := Insert(x, s[1..]);
      assert s == [s[0]] + s[1..];
      [s[0]] + rest
  }

  /** No two rows share a label. */
  predicate UniqueNames(rows: seq<LabelCount>) {
    forall i, j :: 0 <= i < j < |rows| ==> rows[i].name != rows[j].name
  }

  /** A row whose label the others lack can go in front. */
  lemma UniqueCons(x: LabelCount, s: seq<LabelCount>)
    requires UniqueNames(s)
    requires forall e :: e in s ==> e.name != x.name
    ensures UniqueNames([x] + s)
  {
    forall i, j | 0 <= i < j < |[x] + s| ensures ([x] + s)[i].name != ([x] + s)[j].name {
      assert ([x] + s)[j] == s[j - 1];
      if i == 0 {
        assert s[j - 1] in s;
      } else {
        assert ([x] + s)[i] == s[i - 1];
      }
    }
  }

  /** Inserting a row with a new label keeps the labels unique. */
  lemma {:induction false} InsertUnique(x: LabelCount, s: seq<LabelCount>)
    requires SortedByLabel(s) && UniqueNames(s)
    requires forall e :: e in s ==> e.name != x.name
    ensures UniqueNames(Insert(x, s))
  {
    if |s| == 0 || LabelLe(x.name, s[0].name) {
      UniqueCons(x, s);
    } else {
      var tail := s[1..];
      assert s == [s[0]] + tail;
      InsertUnique(x, tail);
      var rest := Insert(x, tail);
      forall e | e in rest ensures e.name != s[0].name {
        assert e in multiset(tail) + multiset{x};
        if e != x {
          assert e in tail;
        }
      }
      UniqueCons(s[0], rest);
    }
  }

  /** Sorting rows with unique labels keeps them unique. */
  lemma {:induction false} SortUnique(rows: seq<LabelCount>)
    requires UniqueNames(rows)
    ensures UniqueNames(SortByLabel(rows))
  {
    if |rows| > 0 {
      var tail := rows[1..];
      SortUnique(tail);
      var sortedTail := SortByLabel(tail);
      forall e | e in sortedTail ensures e.name != rows[0].name {
        assert e in multiset(tail);
        var j :| 0 <= j < |tail| && tail[j] == e;
        assert rows[j + 1] == e;
      }
      InsertUnique(rows[0], sortedTail);
    }
  }

  /** `sort_values(by=label)`: the rows in label order. */
  function SortByLabel(rows: seq<LabelCount>): (r: seq<LabelCount>)
    ensures SortedByLabel(r)
    ensures multiset(r) == multiset(rows)
    ensures |r| == |rows|
  {
    if |rows| == 0 then []
    else
      assert rows == [rows[0]] + rows[1..];
      Insert(rows[0], SortByLabel(rows[1..]))
  }

  lemma {:induction false} InsertSum(x: LabelCount, s: seq<LabelCount>)
    requires SortedByLabel(s)
    ensures SumShares(Insert(x, s)) == x.share + SumShares(s)
  {
    if |s| > 0 && !LabelLe(x.name, s[0].name) {
      InsertSum(x, s[1..]);
      assert Insert(x, s)[1..] == Insert(x, s[1..]);
    }
  }

  /** Sorting does not change the total share. */
  lemma {:induction false} SortKeepsSum(rows: seq<LabelCount>)
    ensures SumShares(SortByLabel(rows)) == SumShares(rows)
  {
    if |rows| > 0 {
      SortKeepsSum(rows[1..]);
      InsertSum(rows[0], SortByLabel(rows[1..]));
    }
  }

  /** One chart table: completion, normalisation and sort. An all-zero
      table has no shares summing to 1 and fails the final check. */
  function CountsTable(labels: seq<string>, universe: seq<string>): (r: Result<seq<LabelCount>>)
    ensures r.Err? ==> r.error == AssertionError
    ensures r.Ok? ==> SortedByLabel(r.value)
    ensures r.Ok? ==> SumShares(r.value) == 1.0
    ensures r.Ok? ==> UniqueNames(r.value)
    ensures r.Ok? ==> forall k :: 0 <= k < |r.value| ==> r.value[k].count == CountOf(labels, r.value[k].name)
    ensures r.Ok? ==> |labels| > 0 && forall k :: 0 <= k < |r.value| ==> r.value[k].share == r.value[k].count as real / |labels| as real
    ensures CompleteCounts(labels, universe).Ok? ==> (r.Ok? <==> |labels| > 0)
  {
    var tallies :- CompleteCounts(labels, universe);
    var total := SumCounts(tallies);
    CompletedTotal(labels, universe);
    if total == 0 then Err(AssertionError)
    else
      SharesSumToOne(tallies);
      SortKeepsCounts(tallies, total, labels);
      SharesUnique(tallies, total);
      SortUnique(Shares(tallies, total));
      Ok(SortByLabel(Shares(tallies, total)))
  }

  /** Tallies with distinct labels give rows with unique labels. */
  lemma SharesUnique(tallies: seq<Tally>, total: nat)
    requires total > 0 && Distinct(TallyLabels(tallies))
    ensures UniqueNames(Shares(tallies, total))
  {
    var rows := Shares(tallies, total);
    forall i, j | 0 <= i < j < |rows| ensures rows[i].name != rows[j].name {
      assert rows[i].name == TallyLabels(tallies)[i] && rows[j].name == TallyLabels(tallies)[j];
    }
  }

  /** The sorted, normalised shares add up to 1. */
  lemma SharesSumToOne(tallies: seq<Tally>)
    requires SumCounts(tallies) > 0
    ensures SumShares(SortByLabel(Shares(tallies, SumCounts(tallies)))) == 1.0
  {
    var total := SumCounts(tallies);
    SharesSum(tallies, total);
    SortKeepsSum(Shares(tallies, total));
    WholeShare(total);
  }

  lemma WholeShare(total: nat)
    requires total > 0
    ensures total as real / total as real == 1.0
  {
  }

  /** Sorting the normalised rows keeps each row's count. */
  lemma SortKeepsCounts(tallies: seq<Tally>, total: nat, labels: seq<string>)
    requires total > 0
    requires forall k :: 0 <= k < |tallies| ==> tallies[k].count == CountOf(labels, tallies[k].name)
    ensures var sorted := SortByLabel(Shares(tallies, total));
      forall k :: 0 <= k < |sorted| ==> sorted[k].count == CountOf(labels, sorted[k].name)
    ensures var sorted := SortByLabel(Shares(tallies, total));
      forall k :: 0 <= k < |sorted| ==> sorted[k].share == sorted[k].count as real / total as real
  {
    var rows := Shares(tallies, total);
    var sorted := SortByLabel(rows);
    forall k | 0 <= k < |sorted|
      ensures sorted[k].count == CountOf(labels, sorted[k].name)
      ensures sorted[k].share == sorted[k].count as real / total as real
    {
      assert sorted[k] in multiset(rows);
      var j :| 0 <= j < |rows| && rows[j] == sorted[k];
    }
  }

  /** A non-empty column whose labels all belong to the universe gives a
      table with one row per universe label: as many rows as distinct
      universe labels, and exactly the universe's labels as row names. */
  lemma CountsTableCovers(labels: seq<string>, universe: seq<string>)
    requires |labels| > 0 && ToSet(labels) <= ToSet(universe)
    ensures CountsTable(labels, universe).Ok?
    ensures |CountsTable(labels, universe).value| == |Dedup(universe)|
    ensures forall l :: l in universe <==> NamedRow(CountsTable(labels, universe).value, l)
  {
    CompleteCountsCovers(labels, universe);
    var tallies := CompleteCounts(labels, universe).value;
    CountedLabelTotal(labels, universe, tallies);
    var rows := Shares(tallies, SumCounts(tallies));
    SortKeepsNames(tallies, SumCounts(tallies));
    assert |SortByLabel(rows)| == |rows|;
  }

  /** Some row of `rows` is named `l`. */
  predicate NamedRow(rows: seq<LabelCount>, l: string) {
    exists k :: 0 <= k < |rows| && rows[k].name == l
  }

  /** The sorted, normalised rows are named by exactly the tallies' labels. */
  lemma SortKeepsNames(tallies: seq<Tally>, total: nat)
    requires total > 0
    ensures forall l :: l in TallyLabels(tallies) <==> NamedRow(SortByLabel(Shares(tallies, total)), l)
  {
    var sorted := SortByLabel(Shares(tallies, total));
    forall l ensures l in TallyLabels(tallies) <==> NamedRow(sorted, l) {
      if l in TallyLabels(tallies) {
        var j :| 0 <= j < |tallies| && TallyLabels(tallies)[j] == l;
        TallySorted(tallies, total, j);
      }
      if NamedRow(sorted, l) {
        var k :| 0 <= k < |sorted| && sorted[k].name == l;
        SortedRowTallied(tallies, total, k);
      }
    }
  }

  /** Each tally's label names some sorted row. */
  lemma TallySorted(tallies: seq<Tally>, total: nat, j: nat)
    requires total > 0 && j < |tallies|
    ensures NamedRow(SortByLabel(Shares(tallies, total)), tallies[j].name)
  {
    var rows := Shares(tallies, total);
    var sorted := SortByLabel(rows);
    assert rows[j] in multiset(sorted);
    var k :| 0 <= k < |sorted| && sorted[k] == rows[j];
    assert sorted[k].name == tallies[j].name;
  }

  /** Each sorted row is named by some tally's label. */
  lemma SortedRowTallied(tallies: seq<Tally>, total: nat, k: nat)
    requires total > 0 && k < |SortByLabel(Shares(tallies, total))|
    ensures SortByLabel(Shares(tallies, total))[k].name in TallyLabels(tallies)
  {
    var rows := Shares(tallies, total);
    var sorted := SortByLabel(rows);
    assert sorted[k] in multiset(rows);
    var j :| 0 <= j < |rows| && rows[j] == sorted[k];
    assert TallyLabels(tallies)[j] == sorted[k].name;
  }

  /** A counted label of a non-empty column gives the table a positive total. */
  lemma CountedLabelTotal(labels: seq<string>, universe: seq<string>, tallies: seq<Tally>)
    requires |labels| > 0
    requires CompleteCounts(labels, universe) == Ok(tallies)
    requires ToSet(labels) <= ToSet(universe)
    ensures SumCounts(tallies) > 0
  {
    assert labels[0] in ToSet(labels);
    CompleteCountsCovers(labels, universe);
    assert labels[0] in TallyLabels(tallies);
    var k :| 0 <= k < |tallies| && TallyLabels(tallies)[k] == labels[0];
    assert tallies[k].count == CountOf(labels, labels[0]);
    CountOfPresent(labels, labels[0]);
    PositiveSummand(tallies, k);
  }

  lemma CountOfPresent(labels: seq<string>, key: string)
    requires |labels| > 0 && labels[0] == key
    ensures CountOf(labels, key) > 0
  {
  }

  lemma {:induction false} PositiveSummand(ts: seq<Tally>, k: nat)
    requires k < |ts| && ts[k].count > 0
    ensures SumCounts(ts) > 0
  {
    if k > 0 {
      PositiveSummand(ts[1..], k - 1);
    }
  }

  /** `cluster_counts`: the event-name table and the sub-event-name table. */
  function ClusterCounts(events: seq<ClusterEvent>, eventLabels: seq<string>, subEventLabels: seq<string>): (r: Result<(seq<LabelCount>, seq<LabelCount>)>)
    ensures r.Ok? <==> CountsTable(EventNames(events), eventLabels).Ok? && CountsTable(SubEventNames(events), subEventLabels).Ok?
    ensures r.Ok? ==> SortedByLabel(r.value.0) && SumShares(r.value.0) == 1.0
    ensures r.Ok? ==> SortedByLabel(r.value.1) && SumShares(r.value.1) == 1.0
    ensures r.Ok? ==> r.value == (CountsTable(EventNames(events), eventLabels).value, CountsTable(SubEventNames(events), subEventLabels).value)
  {
    var byEvent :- CountsTable(EventNames(events), eventLabels);
    var bySubEvent :- CountsTable(SubEventNames(events), subEventLabels);
    Ok((byEvent, bySubEvent))
  }

  function EventNames(events: seq<ClusterEvent>): seq<string> {
    seq(|events|, k requires 0 <= k < |events| => events[k].eventName)
  }

  function SubEventNames(events: seq<ClusterEvent>): seq<string> {
    seq(|events|, k requires 0 <= k < |events| => events[k].subEventName)
  }
}

=== FILE: common_tasks.dfy ===
/** Validation and player-table helpers of src/data/common_tasks.py:
    `id_checker` and `player_position_extractor`. */
module CommonTasks {
  import opened Wrappers
  import opened Seqs
  import Text

  /** A Python argument whose type is only known at run time. */
  datatype Dyn = IntArg(i: int) | BoolArg(b: bool) | StrArg(s: string) | OtherArg

  /** `id_checker`: only an int greater than zero passes (a bool is an int
      in Python, `True` being 1); anything else raises AssertionError. */
  function IdChecker(x: Dyn): (r: Result<()>)
    ensures r.Ok? <==> (x.IntArg? && x.i > 0) || x == BoolArg(true)
    ensures r.Err? ==> r.error == AssertionError
  {
    match x
    case IntArg(i) => if i > 0 then Ok(()) else Err(AssertionError)
    case BoolArg(b) => if b then Ok(()) else Err(AssertionError)
    case _ => Err(AssertionError)
  }

  /** A row of the player table: the Wyscout id and the `role` record, whose
      keys are "code2" ("GK"), "code3" ("GKP") and "name" ("Goalkeeper"). */
  datatype Player = Player(wyId: int, role: map<string, string>)

  const Notations: seq<string> := ["two", "three", "full"]

  /** `notation_mapper.get(key)`. */
  function NotationColumn(key: string): (r: Option<string>)
    ensures r.Some? <==> key in Notations
    ensures key == "two" ==> r == Some("code2")
    ensures key == "three" ==> r == Some("code3")
    ensures key == "full" ==> r == Some("name")
  {
    if key == "two" then Some("code2")
    else if key == "three" then Some("code3")
    else if key == "full" then Some("name")
    else None
  }

  /** `role.get(key)`: a `None` key is never present in a role record. */
  function RoleGet(role: map<string, string>, key: Option<string>): Option<string> {
    if key.Some? && key.value in role then Some(role[key.value]) else None
  }

  /** The checks `player_position_extractor` makes before the lookup: the
      player id, the notation's type, then its normalised value. */
  function CheckedNotation(playerId: int, notation: Dyn): (r: Result<string>)
    ensures r.Ok? <==> playerId > 0 && notation.StrArg? && Text.Squeeze(notation.s) in Notations
    ensures r.Ok? ==> r.value == Text.Squeeze(notation.s)
    ensures playerId <= 0 ==> r == Err(AssertionError)
    ensures playerId > 0 && !notation.StrArg? ==> r == Err(TypeError)
    ensures playerId > 0 && notation.StrArg? && Text.Squeeze(notation.s) !in Notations ==> r == Err(ValueError)
  {
    var _ :- IdChecker(IntArg(playerId));
    if !notation.StrArg? then Err(TypeError)
    else
      var normed := Text.Squeeze(notation.s);
      if normed in Notations then Ok(normed) else Err(ValueError)
  }

  /** `PLYR_DF[PLYR_DF.wyId == id].role.iloc[0]`: the first matching player
      row; IndexError when no row matches. */
  function FindPlayer(players: seq<Player>, playerId: int): (r: Result<Player>)
    ensures r.Ok? <==> exists k :: 0 <= k < |players| && players[k].wyId == playerId
    ensures r.Err? ==> r.error == IndexError
    ensures r.Ok? ==> exists k :: 0 <= k < |players| && players[k] == r.value && r.value.wyId == playerId &&
                                  forall j :: 0 <= j < k ==> players[j].wyId != playerId
  {
    match FirstIndex(players, (p: Player) => p.wyId == playerId)
    case None => Err(IndexError)
    case Some(k) => Ok(players[k])
  }

  /** `player_position_extractor` as written: the mapper is consulted under
      the literal key "normed_notation", so the column is `None` and no
      position is ever found. */
  function PlayerPositionAsWritten(players: seq<Player>, playerId: int, notation: Dyn): (r: Result<Option<string>>)
    ensures r.Ok? <==> CheckedNotation(playerId, notation).Ok? && FindPlayer(players, playerId).Ok?
    ensures r.Ok? ==> r.value == None
  {
    var _ :- CheckedNotation(playerId, notation);
    var player :- FindPlayer(players, playerId);
    Ok(RoleGet(player.role, NotationColumn("normed_notation")))
  }

  /** `player_position_extractor` reading the column that the requested
      notation names ("two" -> code2, "three" -> code3, "full" -> name). */
  function PlayerPosition(players: seq<Player>, playerId: int, notation: Dyn): (r: Result<Option<string>>)
    ensures r.Ok? <==> CheckedNotation(playerId, notation).Ok? && FindPlayer(players, playerId).Ok?
    ensures r.Err? ==> r.error == (if CheckedNotation(playerId, notation).Err?
                                   then CheckedNotation(playerId, notation).error else IndexError)
    ensures r.Ok? ==> exists k :: 0 <= k < |players| && players[k].wyId == playerId &&
                                  (forall j :: 0 <= j < k ==> players[j].wyId != playerId) &&
                                  r.value == RoleGet(players[k].role, NotationColumn(Text.Squeeze(notation.s)))
  {
    var normed :- CheckedNotation(playerId, notation);
    var player :- FindPlayer(players, playerId);
    Ok(RoleGet(player.role, NotationColumn(normed)))
  }

  /** `player_position_extractor` for a notation already in normal form,
      as the rules call it: the player id check, then the first player row
      with that id, then the column the notation names. */
  function NotationLookup(players: seq<Player>, playerId: int, notation: string): (r: Result<Option<string>>)
    requires notation in Notations
    ensures r.Err? <==> playerId <= 0 || forall k :: 0 <= k < |players| ==> players[k].wyId != playerId
    ensures r.Err? ==> r.error == (if playerId <= 0 then AssertionError else IndexError)
  {
    if playerId <= 0 then Err(AssertionError)
    else match FirstIndex(players, (p: Player) => p.wyId == playerId)
      case None => Err(IndexError)
      case Some(k) => Ok(RoleGet(players[k].role, NotationColumn(notation)))
  }

  /** The three accepted notations are their own normal form. */
  lemma NotationsAreNormal(notation: string)
    requires notation in Notations
    ensures Text.Squeeze(notation) == notation
  {
    Text.SqueezeKeepsNormalForm(notation);
  }

  /** The rules' lookups, with a notation already in normal form, are
      `player_position_extractor` itself. */
  lemma NotationLookupAgrees(players: seq<Player>, playerId: int, notation: string)
    requires notation in Notations
    ensures NotationLookup(players, playerId, notation) == PlayerPosition(players, playerId, StrArg(notation))
  {
    NotationsAreNormal(notation);
    assert CheckedNotation(playerId, StrArg(notation)) == if playerId > 0 then Ok(notation) else Err(AssertionError);
    if playerId > 0 {
      match FirstIndex(players, (p: Player) => p.wyId == playerId)
      case None =>
      case Some(k) =>
        assert FindPlayer(players, playerId) == Ok(players[k]);
    }
  }

  /** The one-row player table of the examples below: a defender. */
  const Defender: seq<Player> := [Player(7, map["code3" := "DEF"])]

  /** A defender listed under "code3": the corrected lookup finds "DEF", the
      lookup as written finds nothing. */
  lemma AsWrittenLookupLosesPosition()
    ensures PlayerPosition(Defender, 7, StrArg("three")) == Ok(Some("DEF"))
    ensures PlayerPositionAsWritten(Defender, 7, StrArg("three")) == Ok(None)
  {
    NotationsAreNormal("three");
    var checked := CheckedNotation(7, StrArg("three"));
    assert checked == Ok("three");
    FindDefender();
    assert NotationColumn("three") == Some("code3");
    assert RoleGet(Defender[0].role, Some("code3")) == Some("DEF");
  }

  lemma FindDefender()
    ensures FindPlayer(Defender, 7) == Ok(Defender[0])
  {
    assert Defender[0].wyId == 7;
  }
}

=== FILE: contour_position_prep.dfy ===
/** Pitch coordinates of src/visualizations/contour_position_prep.py: event
    positions, recorded in percent of the pitch, converted to metres on a
    104 m x 68 m pitch for the contour plots. */
module ContourPrep {
  import opened Wrappers
  import opened Events

  const PitchLength: real := 104.0
  const PitchWidth: real := 68.0

  /** A point on the pitch in metres. */
  datatype PitchPoint = PitchPoint(x: real, y: real)

  /** The parsed positions list must hold a start and at most an end. */
  predicate WellFormedPositions(positions: seq<Point>) {
    1 <= |positions| <= 2
  }

  /** Percent of the pitch to metres along one axis. */
  function ToMetres(percent: int, size: real): real {
    (percent as real / 100.0) * size
  }

  /** `event_starting_point_extractor`: the first position scaled to metres. */
  function StartPoint(positions: seq<Point>): (r: Result<PitchPoint>)
    ensures r.Ok? <==> WellFormedPositions(positions)
    ensures r.Err? ==> r.error == AssertionError
    ensures r.Ok? && 0 <= positions[0].x <= 100 && 0 <= positions[0].y <= 100 ==>
              0.0 <= r.value.x <= PitchLength && 0.0 <= r.value.y <= PitchWidth
  {
    if !WellFormedPositions(positions) then Err(AssertionError)
    else Ok(PitchPoint(ToMetres(positions[0].x, PitchLength), ToMetres(positions[0].y, PitchWidth)))
  }

  /** The conversion loses nothing: the recorded percentages come back. */
  lemma StartPointInverts(positions: seq<Point>)
    requires WellFormedPositions(positions)
    ensures StartPoint(positions).value.x * 100.0 / PitchLength == positions[0].x as real
    ensures StartPoint(positions).value.y * 100.0 / PitchWidth == positions[0].y as real
  {
  }

  /** The position an event ends at: the second one, or the start when
      only one is recorded (a foul, say). */
  function EndPosition(positions: seq<Point>): (p: Point)
    requires WellFormedPositions(positions)
    ensures |positions| == 1 ==> p == positions[0]
    ensures |positions| == 2 ==> p == positions[1]
  {
    if |positions| == 2 then positions[1] else positions[0]
  }

  /** `event_ending_point_extractor` as written: x is left in percent and y
      is scaled by 69/100 rather than 68/100. */
  function EndPointAsWritten(positions: seq<Point>): (r: Result<PitchPoint>)
    ensures r.Ok? <==> WellFormedPositions(positions)
    ensures r.Err? ==> r.error == AssertionError
    ensures r.Ok? ==> r.value.x == EndPosition(positions).x as real
    ensures r.Ok? ==> r.value.y == EndPosition(positions).y as real * 69.0 / 100.0
  {
    if !WellFormedPositions(positions) then Err(AssertionError)
    else
      var p := EndPosition(positions);
      Ok(PitchPoint(p.x as real, (p.y as real / 100.0) * 69.0))
  }

  /** As written, an event that never moved ends somewhere else than it
      starts: at the centre spot (50, 50) it starts at (52, 34) and ends at
      (50, 34.5). */
  lemma StationaryEventMovesAsWritten()
    ensures StartPoint([Point(50, 50)]) == Ok(PitchPoint(52.0, 34.0))
    ensures EndPointAsWritten([Point(50, 50)]) == Ok(PitchPoint(50.0, 34.5))
  {
  }

  /** The end point in the start point's scale. */
  function EndPoint(positions: seq<Point>): (r: Result<PitchPoint>)
    ensures r.Ok? <==> WellFormedPositions(positions)
    ensures r.Err? ==> r.error == AssertionError
  {
    if !WellFormedPositions(positions) then Err(AssertionError)
    else
      var p := EndPosition(positions);
      Ok(PitchPoint(ToMetres(p.x, PitchLength), ToMetres(p.y, PitchWidth)))
  }

  /** With one recorded position the event ends where it starts; with two
      it ends at the start point of its second position. */
  lemma EndPointMatchesStartScale(positions: seq<Point>)
    requires WellFormedPositions(positions)
    ensures |positions| == 1 ==> EndPoint(positions) == StartPoint(positions)
    ensures |positions| == 2 ==> EndPoint(positions) == StartPoint(positions[1..])
  {
  }
}

=== FILE: events.dfy ===
/** The match-event record of the event log and the pandas row access the
    rule battery relies on. A window is a time-ordered `seq<Event>` whose
    index labels are its positions 0..n-1. */
module Events {
  import opened Wrappers
  import opened Seqs

  /** A field coordinate in percent of the pitch, seen from the team that
      initiates the event (x grows towards the opponent's goal). */
  datatype Point = Point(x: int, y: int)

  datatype Event = Event(
    id: int,
    eventId: int,
    subEventId: int,
    teamId: int,
    playerId: int,
    matchId: int,
    matchPeriod: string,
    eventSec: real,
    positions: seq<Point>,  // start, then (usually) end
    tags: set<int>)

  // Event type codes.
  const FoulEvent := 2
  const SetPieceEvent := 3
  const InterruptionEvent := 5
  const OffsideEvent := 6
  const SaveAttemptEvent := 9
  const ShotEvent := 10

  // Sub-event type codes.
  const BallOutSubEvent := 50
  const WhistleSubEvent := 51
  const ClearanceSubEvent := 71

  // Tag codes.
  const GoalTag := 101
  const SaveTag := 1801
  const CounterAttackTag := 1901

  /** The event has a start position (`positions[0]` exists). */
  predicate Located(e: Event) {
    |e.positions| >= 1
  }

  predicate AllLocated(w: seq<Event>) {
    forall k :: 0 <= k < |w| ==> Located(w[k])
  }

  function StartOf(e: Event): Point
    requires Located(e)
  {
    e.positions[0]
  }

  /** The end position, falling back to the start when only one position is recorded. */
  function EndOf(e: Event): Point
    requires Located(e)
  {
    if |e.positions| >= 2 then e.positions[1] else e.positions[0]
  }

  function IdsOf(w: seq<Event>): (r: seq<int>)
    ensures |r| == |w|
    ensures forall k :: 0 <= k < |w| ==> r[k] == w[k].id
  {
    seq(|w|, k requires 0 <= k < |w| => w[k].id)
  }

  /** pandas `iloc[i]` for -n <= i < n: a negative position counts from the end. */
  function RowAt(w: seq<Event>, i: int): (e: Event)
    requires -|w| <= i < |w|
    ensures e in w
  {
    if i >= 0 then w[i] else w[|w| + i]
  }

  /** Position of the first row carrying `id` (`first_valid_index` of an id mask). */
  function FirstRowWithId(w: seq<Event>, id: int): (r: Option<nat>)
    ensures r.Some? ==> r.value < |w| && w[r.value].id == id
    ensures r.Some? ==> forall j :: 0 <= j < r.value ==> w[j].id != id
    ensures r.None? <==> id !in IdsOf(w)
  {
    var r := FirstIndex(w, (e: Event) => e.id == id);
    assert r.None? ==> forall k :: 0 <= k < |w| ==> IdsOf(w)[k] != id;
    r
  }
}

=== FILE: extractor.dfy ===
/** src/data/set_piece_extractor.py: the restart filter, the generation of
    one set-piece sequence from the rule battery, and the compilation of
    all sequences into one labelled table (the path without the backup). */
module Extractor {
  import opened Wrappers
  import opened Seqs
  import opened Events
  import opened CommonTasks
  import opened EndingChecker
  import Text

  /* ---------------------------------------------------------------------
     Restart extraction
     --------------------------------------------------------------------- */

  /** The two shapes `set_piece_initating_events_extractor` can return: the
      ids of the restart rows, or the rows themselves. */
  datatype Restarts = IdList(ids: seq<int>) | Frame(rows: seq<Event>)

  const ReturnTypes: seq<string> := ["list", "dataframe"]

  predicate IsRestart(e: Event) {
    e.eventId == SetPieceEvent
  }

  /** `events_data[events_data.eventId == 3]`. */
  function RestartRows(events: seq<Event>): (r: seq<Event>)
    ensures forall e :: e in r <==> e in events && IsRestart(e)
    ensures |r| == CountWhere(events, IsRestart)
  {
    Filter(events, IsRestart)
  }

  /** The restart rows of two consecutive stretches of the log are those of
      the first followed by those of the second: the filter keeps the log's
      order. */
  lemma RestartRowsKeepOrder(a: seq<Event>, b: seq<Event>)
    ensures RestartRows(a + b) == RestartRows(a) + RestartRows(b)
  {
    FilterAppend(a, b, IsRestart);
  }

  /** `set_piece_initating_events_extractor`: the requested shape must be a
      string that normalises to "list" or "dataframe"; anything else raises
      ValueError. */
  function InitiatingEvents(typeToReturn: Dyn, events: seq<Event>): (r: Result<Restarts>)
    ensures r.Ok? <==> typeToReturn.StrArg? && Text.Squeeze(typeToReturn.s) in ReturnTypes
    ensures r.Err? ==> r.error == ValueError
    ensures r.Ok? && Text.Squeeze(typeToReturn.s) == "list" ==> r.value == IdList(IdsOf(RestartRows(events)))
    ensures r.Ok? && Text.Squeeze(typeToReturn.s) == "dataframe" ==> r.value == Frame(RestartRows(events))
  {
    if !typeToReturn.StrArg? then Err(ValueError)
    else
      var normed := Text.Squeeze(typeToReturn.s);
      if normed == "list" then Ok(IdList(IdsOf(RestartRows(events))))
      else if normed == "dataframe" then Ok(Frame(RestartRows(events)))
      else Err(ValueError)
  }

  /** The default call, `set_piece_initating_events_extractor()`, lists the
      ids of the restart rows. */
  lemma DefaultListsRestartIds(events: seq<Event>)
    ensures InitiatingEvents(StrArg("list"), events) == Ok(IdList(IdsOf(RestartRows(events))))
  {
    Text.SqueezeKeepsNormalForm("list");
  }

  /* ---------------------------------------------------------------------
     Sequence generation
     --------------------------------------------------------------------- */

  function Fired(): Option<int> -> bool {
    (x: Option<int>) => x.Some?
  }

  /** Consecutive rows never go back in time (`np.diff(eventSec) >= 0`). */
  predicate NonDecreasingSecs(s: seq<Event>) {
    forall i :: 0 < i < |s| ==> s[i - 1].eventSec <= s[i].eventSec
  }

  /** `s` ends at the first row carrying the id reported by the first rule
      that fired, whatever the order of the reported rows in time. */
  predicate EndsAtFirstFired(s: seq<Event>, results: seq<Option<int>>) {
    0 < |s| &&
    exists j :: 0 <= j < |results| && results[j].Some?
                && (forall i :: 0 <= i < j ==> results[i].None?)
                && s[|s| - 1].id == results[j].value
                && forall k :: 0 <= k < |s| - 1 ==> s[k].id != results[j].value
  }

  /** Rule `j` is the first rule, in `checks` order, that fired. */
  predicate FirstFiredAt(results: seq<Option<int>>, j: int) {
    0 <= j < |results| && results[j].Some? && forall i :: 0 <= i < j ==> results[i].None?
  }

  /** The selection and cut of `set_piece_sequence_generator` once the rule
      results are known: no fired rule is an AssertionError, an id missing
      from the window a TypeError (`None + 1`), and time going backwards in
      the prefix an AssertionError. */
  function CutAtFirstFired(window: seq<Event>, results: seq<Option<int>>): (r: Result<seq<Event>>)
    ensures (forall j :: 0 <= j < |results| ==> results[j].None?) ==> r == Err(AssertionError)
    ensures r.Err? ==> r.error == AssertionError || r.error == TypeError
    ensures r.Ok? ==> 0 < |r.value| <= |window| && r.value == window[..|r.value|]
    ensures r.Ok? ==> NonDecreasingSecs(r.value)
    ensures r.Ok? ==> EndsAtFirstFired(r.value, results)
  {
    match FirstIndex(results, Fired())
    case None => Err(AssertionError)
    case Some(which) =>
      var lastId := results[which].value;
      match FirstRowWithId(window, lastId)
      case None => Err(TypeError)
      case Some(cut) =>
        var prefix := window[..cut + 1];
        assert prefix[|prefix| - 1] == window[cut];
        if NonDecreasingSecs(prefix) then Ok(prefix) else Err(AssertionError)
  }

  /** `set_piece_sequence_generator`, given the 25-event window and the
      10-event look-ahead of the restart and the player table. The
      boundary comes from the first rule in `checks` order that fires; the
      sequence is the window up to the first row with that id. */
  function SequenceGenerator(startId: int, window: seq<Event>, lookAhead: seq<Event>, players: seq<Player>): (r: Result<seq<Event>>)
    requires AllLocated(window)
    ensures startId <= 0 ==> r == Err(AssertionError)
    ensures startId > 0 && RunChecks(window, lookAhead, players).Err? ==> r == Err(RunChecks(window, lookAhead, players).error)
    ensures startId > 0 && RunChecks(window, lookAhead, players).Ok? ==> r == CutAtFirstFired(window, RunChecks(window, lookAhead, players).value)
    ensures r.Ok? ==> 0 < |r.value| <= |window| && r.value == window[..|r.value|]
    ensures r.Ok? ==> NonDecreasingSecs(r.value)
  {
    var _ :- IdChecker(IntArg(startId));
    var results :- RunChecks(window, lookAhead, players);
    CutAtFirstFired(window, results)
  }

  /** The first fired rule's id first occurring at row `n - 1`, with the
      rows up to it in time order, gives exactly that prefix. */
  lemma CutAtPrefix(window: seq<Event>, results: seq<Option<int>>, n: nat, j: nat)
    requires 0 < n <= |window| && FirstFiredAt(results, j)
    requires window[n - 1].id == results[j].value
    requires forall k :: 0 <= k < n - 1 ==> window[k].id != results[j].value
    requires NonDecreasingSecs(window[..n])
    ensures CutAtFirstFired(window, results) == Ok(window[..n])
  {
    assert Fired()(results[j]);
    assert FirstIndex(results, Fired()) == Some(j);
    var id := results[j].value;
    assert IdsOf(window)[n - 1] == id;
    assert FirstRowWithId(window, id) == Some(n - 1);
  }

  /** When the first fired rule reports an id that no window row carries,
      the cut is a TypeError. */
  lemma CutFailsOnAbsentId(window: seq<Event>, results: seq<Option<int>>, j: nat)
    requires FirstFiredAt(results, j) && results[j].value !in IdsOf(window)
    ensures CutAtFirstFired(window, results) == Err(TypeError)
  {
    assert Fired()(results[j]);
    assert FirstIndex(results, Fired()) == Some(j);
    assert FirstRowWithId(window, results[j].value).None?;
  }

  /** Any prefix of non-decreasing times ending at the first fired rule's
      id is exactly what the cut returns. */
  lemma CutFromPrefix(window: seq<Event>, results: seq<Option<int>>, n: nat)
    requires 0 < n <= |window| && NonDecreasingSecs(window[..n]) && EndsAtFirstFired(window[..n], results)
    ensures CutAtFirstFired(window, results) == Ok(window[..n])
  {
    var s := window[..n];
    var j :| 0 <= j < |results| && results[j].Some? && (forall i :: 0 <= i < j ==> results[i].None?)
             && s[|s| - 1].id == results[j].value && forall k :: 0 <= k < |s| - 1 ==> s[k].id != results[j].value;
    forall k | 0 <= k < n - 1 ensures window[k].id != results[j].value {
      assert s[k] == window[k];
    }
    CutAtPrefix(window, results, n, j);
  }

  /** The cut succeeds exactly when some prefix of the window has
      non-decreasing times and ends at the first fired rule's id. */
  lemma CutSucceedsIff(window: seq<Event>, results: seq<Option<int>>)
    ensures CutAtFirstFired(window, results).Ok? <==>
            exists n :: 0 < n <= |window| && NonDecreasingSecs(window[..n]) && EndsAtFirstFired(window[..n], results)
  {
    var r := CutAtFirstFired(window, results);
    if r.Ok? {
      assert window[..|r.value|] == r.value;
    }
    if exists n :: 0 < n <= |window| && NonDecreasingSecs(window[..n]) && EndsAtFirstFired(window[..n], results) {
      var n :| 0 < n <= |window| && NonDecreasingSecs(window[..n]) && EndsAtFirstFired(window[..n], results);
      CutFromPrefix(window, results, n);
    }
  }

  /** When no rule fires the generation fails with AssertionError. */
  lemma NoRuleFiredFails(startId: int, window: seq<Event>, lookAhead: seq<Event>, players: seq<Player>, results: seq<Option<int>>)
    requires AllLocated(window) && startId > 0
    requires RunChecks(window, lookAhead, players) == Ok(results)
    requires forall j :: 0 <= j < |results| ==> results[j].None?
    ensures SequenceGenerator(startId, window, lookAhead, players) == Err(AssertionError)
  {
    assert SequenceGenerator(startId, window, lookAhead, players) == CutAtFirstFired(window, results);
  }

  /** A generated sequence ends at the first row carrying the id reported
      by the first firing rule in `checks` order. */
  lemma GeneratedSequenceEndsAtFirstFiredRule(startId: int, window: seq<Event>, lookAhead: seq<Event>, players: seq<Player>)
    requires AllLocated(window)
    requires SequenceGenerator(startId, window, lookAhead, players).Ok?
    ensures RunChecks(window, lookAhead, players).Ok?
    ensures EndsAtFirstFired(SequenceGenerator(startId, window, lookAhead, players).value, RunChecks(window, lookAhead, players).value)
  {
    var results := RunChecks(window, lookAhead, players).value;
    assert SequenceGenerator(startId, window, lookAhead, players) == CutAtFirstFired(window, results);
  }

  /** Adjacent rows in time order make the whole sequence time-ordered. */
  lemma {:induction false} NonDecreasingIsOrdered(s: seq<Event>, i: nat, j: nat)
    requires NonDecreasingSecs(s) && i <= j < |s|
    ensures s[i].eventSec <= s[j].eventSec
    decreases j - i
  {
    if i < j {
      NonDecreasingIsOrdered(s, i, j - 1);
    }
  }

  /* ---------------------------------------------------------------------
     Compilation
     --------------------------------------------------------------------- */

  /** Compilation resumes after this restart id. */
  const ResumeId := 218217861

  /** `ids_arr[argwhere(ids_arr == 218217861)[0] + 1:]`: the ids after the
      first occurrence of the resume id; IndexError when it is absent. */
  function ResumeAfter(ids: seq<int>): (r: Result<seq<int>>)
    ensures r.Ok? <==> ResumeId in ids
    ensures r.Err? ==> r.error == IndexError
    ensures r.Ok? ==> exists k :: 0 <= k < |ids| && ids[k] == ResumeId && (forall j :: 0 <= j < k ==> ids[j] != ResumeId) &&
                                  r.value == ids[k + 1..]
  {
    match FirstIndex(ids, (x: int) => x == ResumeId)
    case None => Err(IndexError)
    case Some(k) => Ok(ids[k + 1..])
  }

  /** A row of the compiled table: the 1-based sequence number and the event. */
  datatype Labeled = Labeled(seqId: int, event: Event)

  /** `set_piece_sequence_generator` as a function of the restart id, for
      the given sources of windows, look-aheads and players. */
  function Generator(windowOf: int -> seq<Event>, lookAheadOf: int -> seq<Event>, players: seq<Player>): int --> Result<seq<Event>> {
    (id: int) requires AllLocated(windowOf(id)) => SequenceGenerator(id, windowOf(id), lookAheadOf(id), players)
  }

  /** The generator run on every id in order; the first failure aborts. */
  function GenerateAll(ids: seq<int>, gen: int --> Result<seq<Event>>): (r: Result<seq<seq<Event>>>)
    requires forall i :: 0 <= i < |ids| ==> gen.requires(ids[i])
    ensures r.Ok? ==> |r.value| == |ids|
    ensures r.Ok? ==> forall i :: 0 <= i < |ids| ==> gen(ids[i]) == Ok(r.value[i])
    ensures r.Err? <==> exists i :: 0 <= i < |ids| && gen(ids[i]).Err?
  {
    if |ids| == 0 then Ok([])
    else
      var first := gen(ids[0]);
      if first.Err? then Err(first.error)
      else
        var rest := GenerateAll(ids[1..], gen);
        if rest.Err? then
          assert exists i :: 0 <= i < |ids| && gen(ids[i]).Err? by {
            var i :| 0 <= i < |ids[1..]| && gen(ids[1..][i]).Err?;
            assert ids[1..][i] == ids[i + 1];
          }
          Err(rest.error)
        else
          assert forall i :: 1 <= i < |ids| ==> ids[i] == ids[1..][i - 1];
          Ok([first.value] + rest.value)
  }

  /** `pd.concat(..., keys=range(first, ...))` followed by the rename to
      `seq_id`: every row of the i-th sequence labelled `first + i`. */
  function LabelEpisodes(episodes: seq<seq<Event>>, first: int): (r: seq<Labeled>)
    ensures forall k :: 0 <= k < |r| ==> first <= r[k].seqId < first + |episodes|
  {
    if |episodes| == 0 then []
    else Label(episodes[0], first) + LabelEpisodes(episodes[1..], first + 1)
  }

  function Label(episode: seq<Event>, seqId: int): (r: seq<Labeled>)
    ensures |r| == |episode|
    ensures forall k :: 0 <= k < |r| ==> r[k] == Labeled(seqId, episode[k])
  {
    seq(|episode|, k requires 0 <= k < |episode| => Labeled(seqId, episode[k]))
  }

  function TotalLength(episodes: seq<seq<Event>>): nat {
    if |episodes| == 0 then 0 else |episodes[0]| + TotalLength(episodes[1..])
  }

  function Flatten(episodes: seq<seq<Event>>): seq<Event> {
    if |episodes| == 0 then [] else episodes[0] + Flatten(episodes[1..])
  }

  function Strip(rows: seq<Labeled>): (r: seq<Event>)
    ensures |r| == |rows|
    ensures forall k :: 0 <= k < |rows| ==> r[k] == rows[k].event
  {
    seq(|rows|, k requires 0 <= k < |rows| => rows[k].event)
  }

  /** The table has as many rows as the sequences together, and without
      its labels it is the sequences one after the other, rows in order. */
  lemma {:induction false} LabelledTableIsConcatenation(episodes: seq<seq<Event>>, first: int)
    ensures |LabelEpisodes(episodes, first)| == TotalLength(episodes)
    ensures Strip(LabelEpisodes(episodes, first)) == Flatten(episodes)
  {
    if |episodes| > 0 {
      LabelledTableIsConcatenation(episodes[1..], first + 1);
      var head, tail := Label(episodes[0], first), LabelEpisodes(episodes[1..], first + 1);
      assert Strip(head + tail) == Strip(head) + Strip(tail);
      assert Strip(head) == episodes[0];
    }
  }

  /** The `i`-th sequence (from 0) occupies the rows after those of the
      sequences before it, each labelled `first + i`. */
  lemma {:induction false} SequenceLabels(episodes: seq<seq<Event>>, first: int, i: nat, k: nat)
    requires i < |episodes| && k < |episodes[i]|
    ensures TotalLength(episodes[..i]) + k < |LabelEpisodes(episodes, first)|
    ensures LabelEpisodes(episodes, first)[TotalLength(episodes[..i]) + k] == Labeled(first + i, episodes[i][k])
  {
    LabelledTableIsConcatenation(episodes, first);
    if i == 0 {
      assert episodes[..0] == [];
    } else {
      SequenceLabels(episodes[1..], first + 1, i - 1, k);
      assert episodes[1..][i - 1] == episodes[i];
      assert episodes[..i][1..] == episodes[1..][..i - 1];
    }
  }

  /** The restart ids the compiler starts from: those of the given frame,
      or else the default extraction over the whole log. */
  function CompileIds(initiating: Option<seq<Event>>, corpus: seq<Event>): seq<int> {
    if initiating.Some? then IdsOf(initiating.value) else IdsOf(RestartRows(corpus))
  }

  /** `set_piece_sequences_compiler` without the backup: the restart ids
      after the resume id, each turned into its sequence by `gen` (in the
      pipeline, `Generator(windowOf, lookAheadOf, players)`), labelled 1..n
      and concatenated; an empty list of sequences cannot be concatenated
      (ValueError). */
  function Compile(initiating: Option<seq<Event>>, corpus: seq<Event>, gen: int --> Result<seq<Event>>): (r: Result<seq<Labeled>>)
    requires forall id :: gen.requires(id)
    ensures ResumeId !in CompileIds(initiating, corpus) ==> r == Err(IndexError)
    ensures ResumeId in CompileIds(initiating, corpus) ==>
              var episodes := GenerateAll(ResumeAfter(CompileIds(initiating, corpus)).value, gen);
              && (r.Ok? <==> episodes.Ok? && |episodes.value| > 0)
              && (episodes.Err? ==> r == Err(episodes.error))
              && (episodes.Ok? && |episodes.value| == 0 ==> r == Err(ValueError))
    ensures r.Ok? ==> ResumeId in CompileIds(initiating, corpus)
    ensures r.Ok? ==> forall k :: 0 <= k < |r.value| ==>
                        1 <= r.value[k].seqId <= |ResumeAfter(CompileIds(initiating, corpus)).value|
    ensures r.Ok? ==> var episodes := GenerateAll(ResumeAfter(CompileIds(initiating, corpus)).value, gen);
                      && episodes.Ok? && r.value == LabelEpisodes(episodes.value, 1)
                      && |r.value| == TotalLength(episodes.value) && Strip(r.value) == Flatten(episodes.value)
  {
    var resumed :- ResumeAfter(CompileIds(initiating, corpus));
    var episodes := GenerateAll(resumed, gen);
    if episodes.Err? then Err(episodes.error)
    else if |episodes.value| == 0 then Err(ValueError)
    else
      LabelledTableIsConcatenation(episodes.value, 1);
      Ok(LabelEpisodes(episodes.value, 1))
  }
}

=== FILE: feature_engineering.dfy ===
/** Per-event features of src/data/feature_engineering.py: the position
    indicator, the normalised match clock, the score differential and the
    running share of attacking events in a compiled sequence. */
module Features {
  import opened Wrappers
  import opened Seqs
  import opened Events
  import opened CommonTasks
  import Extractor

  // ---------------------------------------------------------------------
  // position_engineer
  // ---------------------------------------------------------------------

  /** `index_of_positions`: the slot of each two-letter position code. */
  const PositionSlots: map<string, nat> := map["GK" := 0, "MD" := 1, "DF" := 2, "FW" := 3]

  /** `index_of_positions.get(position)`; a missing position has no slot. */
  function SlotOf(position: Option<string>): (r: Option<nat>)
    ensures r.Some? <==> position.Some? && position.value in PositionSlots
    ensures r.Some? ==> r.value < 4
  {
    if position.Some? && position.value in PositionSlots then Some(PositionSlots[position.value]) else None
  }

  /** Different position codes occupy different slots. */
  lemma SlotsIdentifyPositions(a: Option<string>, b: Option<string>)
    requires SlotOf(a).Some? && SlotOf(a) == SlotOf(b)
    ensures a == b
  {
    assert a.value in PositionSlots.Keys && b.value in PositionSlots.Keys;
    assert PositionSlots.Keys == {"GK", "MD", "DF", "FW"};
  }

  /** Four slots, slot `k` set to 1 and the others 0. */
  predicate OneHot(v: seq<int>, k: nat) {
    |v| == 4 && k < 4 && v[k] == 1 && forall j :: 0 <= j < 4 && j != k ==> v[j] == 0
  }

  /** The two-letter position of the initiating player, as the function
      looks it up (`player_position_extractor(id, "two")`). */
  function TwoLetterPosition(players: seq<Player>, playerId: int): Result<Option<string>> {
    assert "two" in Notations;
    NotationLookup(players, playerId, "two")
  }

  /** `position_engineer`: four zeros for an untracked player (id 0);
      otherwise the lookup's error, a TypeError when the position has no
      slot (`to_return[None]`), or the player's slot set to 1. */
  method PositionEngineer(players: seq<Player>, playerId: int) returns (r: Result<seq<int>>)
    ensures playerId == 0 ==> r == Ok([0, 0, 0, 0])
    ensures playerId != 0 ==> var pos := TwoLetterPosition(players, playerId);
      && (pos.Err? ==> r == Err(pos.error))
      && (pos.Ok? && SlotOf(pos.value).None? ==> r == Err(TypeError))
      && (pos.Ok? && SlotOf(pos.value).Some? ==> r.Ok? && OneHot(r.value, SlotOf(pos.value).value))
  {
    var slots := new int[4](_ => 0);
    if playerId != 0 {
      var position :- TwoLetterPosition(players, playerId);
      var slot := SlotOf(position);
      if slot.None? {
        return Err(TypeError);
      }
      slots[slot.value] := 1;
    } else {
      assert slots[..] == [0, 0, 0, 0];
    }
    return Ok(slots[..]);
  }

  function IsOne(x: int): bool { x == 1 }

  function IsZero(x: int): bool { x == 0 }

  /** The result checks of `position_engineer`: a set indicator is the only
      1, and ones and zeros together fill the slots. */
  lemma {:induction false} OneHotCounts(v: seq<int>, k: nat)
    requires k < |v| && v[k] == 1
    requires forall j :: 0 <= j < |v| && j != k ==> v[j] == 0
    ensures CountWhere(v, IsOne) == 1
    ensures CountWhere(v, IsOne) + CountWhere(v, IsZero) == |v|
  {
    if k == 0 {
      ZeroCounts(v[1..]);
    } else {
      OneHotCounts(v[1..], k - 1);
    }
  }

  lemma {:induction false} ZeroCounts(v: seq<int>)
    requires forall j :: 0 <= j < |v| ==> v[j] == 0
    ensures CountWhere(v, IsOne) == 0 && CountWhere(v, IsZero) == |v|
  {
    if |v| > 0 {
      ZeroCounts(v[1..]);
    }
  }

  /** With the lookup as written the position is always missing, so every
      event of a tracked player raises TypeError. */
  lemma AsWrittenLookupHasNoSlot(players: seq<Player>, playerId: int)
    requires playerId > 0
    requires exists k :: 0 <= k < |players| && players[k].wyId == playerId
    ensures PlayerPositionAsWritten(players, playerId, StrArg("two")).Ok?
    ensures SlotOf(PlayerPositionAsWritten(players, playerId, StrArg("two")).value).None?
  {
    NotationsAreNormal("two");
  }

  // ---------------------------------------------------------------------
  // time_in_match_engineer
  // ---------------------------------------------------------------------

  /** Length of a regulation match in seconds. */
  const TotalMatchTime: real := 5400.0

  /** Seconds played before a period starts: 45 minutes before the second
      half, 90 before the first extra period, 105 before the second. Any
      other period label counts from zero. */
  function PeriodOffset(period: string): (r: real)
    ensures period == "1H" ==> r == 0.0
    ensures period != "2H" && period != "E1" && period != "E2" ==> r == 0.0
  {
    if period == "2H" then 45.0 * 60.0
    else if period == "E1" then 90.0 * 60.0
    else if period == "E2" then 90.0 * 60.0 + 15.0 * 60.0
    else 0.0
  }

  /** Nominal length of each period: two halves of 45 minutes and two
      extra periods of 15. */
  function PeriodLength(period: string): real {
    if period == "1H" || period == "2H" then 45.0 * 60.0 else 15.0 * 60.0
  }

  const Periods: seq<string> := ["1H", "2H", "E1", "E2"]

  /** The share of regulation time elapsed at an event. */
  function MatchClock(period: string, eventSec: real): real {
    (eventSec + PeriodOffset(period)) / TotalMatchTime
  }

  /** `time_in_match_engineer`: the time since the period started, plus
      the periods before it, over 90 minutes. */
  method TimeInMatch(period: string, eventSec: real) returns (r: real)
    ensures r == MatchClock(period, eventSec)
  {
    var matchTimeSinceHalf := eventSec;
    if period == "2H" {
      matchTimeSinceHalf := matchTimeSinceHalf + 45.0 * 60.0;
    } else if period == "E1" {
      matchTimeSinceHalf := matchTimeSinceHalf + 90.0 * 60.0;
    } else if period == "E2" {
      matchTimeSinceHalf := matchTimeSinceHalf + 90.0 * 60.0 + 15.0 * 60.0;
    }
    r := matchTimeSinceHalf / TotalMatchTime;
  }

  /** Each period starts where the ones before it end at their nominal length. */
  lemma PeriodsFollowEachOther(i: nat)
    requires 0 < i < |Periods|
    ensures PeriodOffset(Periods[i]) == PeriodOffset(Periods[i - 1]) + PeriodLength(Periods[i - 1])
  {
  }

  /** Within nominal period lengths the clock never runs backwards: a later
      period, or a later second in the same period, reads higher. */
  lemma {:induction false} MatchClockMonotone(i: nat, a: real, j: nat, b: real)
    requires i < |Periods| && j < |Periods|
    requires 0.0 <= a <= PeriodLength(Periods[i]) && 0.0 <= b <= PeriodLength(Periods[j])
    requires i < j || (i == j && a <= b)
    ensures MatchClock(Periods[i], a) <= MatchClock(Periods[j], b)
  {
    if i < j {
      assert a + PeriodOffset(Periods[i]) <= PeriodOffset(Periods[i + 1]) by {
        PeriodsFollowEachOther(i + 1);
      }
      OffsetsIncrease(i + 1, j);
    }
  }

  lemma {:induction false} OffsetsIncrease(i: nat, j: nat)
    requires i <= j < |Periods|
    ensures PeriodOffset(Periods[i]) <= PeriodOffset(Periods[j])
    decreases j - i
  {
    if i < j {
      PeriodsFollowEachOther(i + 1);
      OffsetsIncrease(i + 1, j);
    }
  }

  /** Regulation time maps onto [0, 1], the end of the second half to 1. */
  lemma RegulationClockInUnitInterval(period: string, eventSec: real)
    requires period == "1H" || period == "2H"
    requires 0.0 <= eventSec <= 2700.0
    ensures 0.0 <= MatchClock(period, eventSec) <= 1.0
    ensures period == "2H" && eventSec == 2700.0 ==> MatchClock(period, eventSec) == 1.0
  {
  }

  /** Added time is not capped: a first-half event in stoppage time reads
      later than the second half's kick-off. */
  lemma AddedTimeOverlapsSecondHalf()
    ensures MatchClock("1H", 2760.0) > MatchClock("2H", 0.0)
  {
  }

  // ---------------------------------------------------------------------
  // score_differential_engineer
  // ---------------------------------------------------------------------

  /** `int(c)` on one character: the decimal digits parse, anything else
      raises ValueError. */
  function Digit(c: char): (r: Result<int>)
    ensures r.Ok? <==> '0' <= c <= '9'
    ensures r.Ok? ==> 0 <= r.value <= 9
    ensures r.Err? ==> r.error == ValueError
  {
    if '0' <= c <= '9' then Ok(c as int - '0' as int) else Err(ValueError)
  }

  /** `score_differential_engineer`, given the score string ("away-home",
      away goals first) and the side of each team of the match. The away
      team reads its own goals from the first character and the
      opponent's from the last; the home team the other way round. A team
      with no side leaves the scores unbound. */
  function ScoreDifferential(score: string, sides: map<int, string>, teamId: int): (r: Result<int>)
    ensures var side := if teamId in sides then sides[teamId] else "";
      r.Ok? <==> (side == "away" || side == "home") && |score| > 0 &&
                 Digit(score[0]).Ok? && Digit(score[|score| - 1]).Ok?
    ensures teamId !in sides || (sides[teamId] != "away" && sides[teamId] != "home") ==> r == Err(UnboundLocalError)
    ensures teamId in sides && (sides[teamId] == "away" || sides[teamId] == "home") && |score| == 0 ==> r == Err(IndexError)
    ensures r.Ok? ==> -9 <= r.value <= 9
    ensures r.Ok? && sides[teamId] == "away" ==> r.value == Digit(score[0]).value - Digit(score[|score| - 1]).value
  {
    var side := if teamId in sides then sides[teamId] else "";
    if side == "away" then
      if |score| == 0 then Err(IndexError)
      else
        var own :- Digit(score[0]);
        var opponent :- Digit(score[|score| - 1]);
        Ok(own - opponent)
    else if side == "home" then
      if |score| == 0 then Err(IndexError)
      else
        var own :- Digit(score[|score| - 1]);
        var opponent :- Digit(score[0]);
        Ok(own - opponent)
    else Err(UnboundLocalError)
  }

  /** For one score the two sides' differentials are each other's negation. */
  lemma HomeNegatesAway(score: string, sides: map<int, string>, home: int, away: int)
    requires home in sides && sides[home] == "home"
    requires away in sides && sides[away] == "away"
    ensures ScoreDifferential(score, sides, home).Ok? <==> ScoreDifferential(score, sides, away).Ok?
    ensures ScoreDifferential(score, sides, home).Ok? ==>
              ScoreDifferential(score, sides, home).value == -ScoreDifferential(score, sides, away).value
  {
  }

  /** A one-digit "a-b" score: the away side leads by a - b. */
  lemma SingleDigitScores(a: char, b: char, sides: map<int, string>, teamId: int)
    requires '0' <= a <= '9' && '0' <= b <= '9'
    requires teamId in sides && sides[teamId] == "away"
    ensures ScoreDifferential([a, '-', b], sides, teamId) == Ok((a as int - '0' as int) - (b as int - '0' as int))
  {
  }

  /** Only the first and last characters are read: a ten-goal score is
      misread ("10-2" gives the away side 1 - 2). */
  lemma TwoDigitScoreMisread()
    ensures ScoreDifferential("10-2", map[1 := "away"], 1) == Ok(-1)
  {
  }

  // ---------------------------------------------------------------------
  // num_attacking_events_engineer
  // ---------------------------------------------------------------------

  function SeqIds(rows: seq<Extractor.Labeled>): (r: seq<int>)
    ensures |r| == |rows|
    ensures forall k :: 0 <= k < |rows| ==> r[k] == rows[k].seqId
  {
    seq(|rows|, k requires 0 <= k < |rows| => rows[k].seqId)
  }

  /** `cumsum()` of the mask `teamId == team`. */
  function CumulativeAttacks(rows: seq<Extractor.Labeled>, team: int): (r: seq<nat>)
    ensures |r| == |rows|
    ensures forall i :: 0 <= i < |r| ==> r[i] <= i + 1
    decreases |rows|
  {
    if |rows| == 0 then []
    else
      var prefix := CumulativeAttacks(rows[..|rows| - 1], team);
      var before := if |prefix| == 0 then 0 else prefix[|prefix| - 1];
      prefix + [before + (if rows[|rows| - 1].event.teamId == team then 1 else 0)]
  }

  function ByTeam(team: int): Extractor.Labeled -> bool {
    (row: Extractor.Labeled) => row.event.teamId == team
  }

  /** The running sum at `i` counts the team's rows among the first `i + 1`. */
  lemma {:induction false} CumulativeAttacksCount(rows: seq<Extractor.Labeled>, team: int, i: nat)
    requires i < |rows|
    ensures CumulativeAttacks(rows, team)[i] == CountWhere(rows[..i + 1], ByTeam(team))
    decreases |rows|
  {
    var init := rows[..|rows| - 1];
    var prefix := CumulativeAttacks(init, team);
    assert CumulativeAttacks(rows, team)[..|rows| - 1] == prefix;
    if i < |rows| - 1 {
      CumulativeAttacksCount(init, team, i);
      assert init[..i + 1] == rows[..i + 1];
    } else {
      assert rows[..i + 1] == init + [rows[i]];
      CountWhereSnoc(init, rows[i], ByTeam(team));
      if i > 0 {
        CumulativeAttacksCount(init, team, i - 1);
        assert init[..i] == init;
      }
    }
  }

  /** The running sums divided by 1, 2, ..., n. */
  function AttackShares(rows: seq<Extractor.Labeled>, team: int): (r: seq<real>)
    ensures |r| == |rows|
    ensures forall i :: 0 <= i < |r| ==> 0.0 <= r[i] <= 1.0
  {
    var c := CumulativeAttacks(rows, team);
    seq(|c|, i requires 0 <= i < |c| => Share(c[i], i + 1))
  }

  function Share(count: nat, total: nat): (r: real)
    requires count <= total && total > 0
    ensures 0.0 <= r <= 1.0
  {
    var q := count as real / total as real;
    assert q * total as real == count as real;
    q
  }

  /** `num_attacking_events_engineer`: the sequence must start with a set
      piece (3) or an interruption (5) and carry a single sequence id; the
      result at `i` is the share of the first `i + 1` rows played by the
      initiating team. */
  function NumAttackingEvents(rows: seq<Extractor.Labeled>): (r: Result<seq<real>>)
    ensures |rows| == 0 <==> r == Err(IndexError)
    ensures |rows| > 0 && rows[0].event.eventId != SetPieceEvent && rows[0].event.eventId != InterruptionEvent ==>
              r == Err(ValueError)
    ensures |rows| > 0 ==> (r.Ok? <==> (rows[0].event.eventId == SetPieceEvent || rows[0].event.eventId == InterruptionEvent) &&
                                       forall k :: 0 <= k < |rows| ==> rows[k].seqId == rows[0].seqId)
    ensures r.Ok? ==> |r.value| == |rows|
    ensures r.Ok? ==> forall i :: 0 <= i < |rows| ==> 0.0 <= r.value[i] <= 1.0
  {
    if |rows| == 0 then Err(IndexError)
    else if rows[0].event.eventId != SetPieceEvent && rows[0].event.eventId != InterruptionEvent then Err(ValueError)
    else if |Dedup(SeqIds(rows))| != 1 then
      DedupSingleton(SeqIds(rows));
      Err(ValueError)
    else
      DedupSingleton(SeqIds(rows));
      Ok(AttackShares(rows, rows[0].event.teamId))
  }

  /** Each running share is the team's rows so far over the rows so far. */
  lemma AttackSharesCount(rows: seq<Extractor.Labeled>, team: int, i: nat)
    requires i < |rows|
    ensures AttackShares(rows, team)[i] == CountWhere(rows[..i + 1], ByTeam(team)) as real / (i + 1) as real
  {
    CumulativeAttacksCount(rows, team, i);
  }

  /** Each share is the count of attacking rows so far over the rows so far. */
  lemma AttackingShareMeaning(rows: seq<Extractor.Labeled>, i: nat)
    requires NumAttackingEvents(rows).Ok? && i < |rows|
    ensures NumAttackingEvents(rows).value[i] ==
              CountWhere(rows[..i + 1], ByTeam(rows[0].event.teamId)) as real / (i + 1) as real
  {
    assert NumAttackingEvents(rows).value == AttackShares(rows, rows[0].event.teamId);
    AttackSharesCount(rows, rows[0].event.teamId, i);
  }

  /** The first share is 1: row 0 belongs to the initiating team. */
  lemma FirstShareIsOne(rows: seq<Extractor.Labeled>)
    requires NumAttackingEvents(rows).Ok?
    ensures NumAttackingEvents(rows).value[0] == 1.0
  {
    AttackingShareMeaning(rows, 0);
    assert rows[..1] == [rows[0]];
  }

  /** The last share is the attacking rows over all rows. */
  lemma LastShareIsOverall(rows: seq<Extractor.Labeled>)
    requires NumAttackingEvents(rows).Ok?
    ensures NumAttackingEvents(rows).value[|rows| - 1] ==
              CountWhere(rows, ByTeam(rows[0].event.teamId)) as real / |rows| as real
  {
    AttackingShareMeaning(rows, |rows| - 1);
    assert rows[..|rows|] == rows;
  }
}

=== FILE: seqs.dfy ===
/** Sequence searches and filters shared by the modules: numpy's
    `argwhere(...)[0]`, boolean-mask filtering, occurrence counts and
    pandas' `unique()`/`drop_duplicates()`. */
module Seqs {
  import opened Wrappers

  /** Index of the first element satisfying `p`. */
  function FirstIndex<T>(s: seq<T>, p: T -> bool): (r: Option<nat>)
    ensures r.Some? ==> r.value < |s| && p(s[r.value])
    ensures r.Some? ==> forall j :: 0 <= j < r.value ==> !p(s[j])
    ensures r.None? <==> forall j :: 0 <= j < |s| ==> !p(s[j])
  {
    if |s| == 0 then None
    else if p(s[0]) then Some(0)
    else match FirstIndex(s[1..], p)
      case None => None
      case Some(k) => Some(k + 1)
  }

  /** Index of the last element satisfying `p`, searched from the end. */
  function LastIndex<T>(s: seq<T>, p: T -> bool): (r: Option<nat>)
    ensures r.Some? ==> r.value < |s| && p(s[r.value])
    ensures r.Some? ==> forall j :: r.value < j < |s| ==> !p(s[j])
    ensures r.None? <==> forall j :: 0 <= j < |s| ==> !p(s[j])
  {
    if |s| == 0 then None
    else if p(s[|s| - 1]) then Some(|s| - 1)
    else LastIndex(s[..|s| - 1], p)
  }

  /** The elements satisfying `p`, in their original order (a boolean mask). */
  function Filter<T(!new)>(s: seq<T>, p: T -> bool): (r: seq<T>)
    ensures |r| <= |s|
    ensures forall x :: x in r <==> x in s && p(x)
  {
    if |s| == 0 then []
    else (if p(s[0]) then [s[0]] else []) + Filter(s[1..], p)
  }

  /** Filtering distributes over concatenation, so it keeps the original order. */
  lemma {:induction false} FilterAppend<T(!new)>(a: seq<T>, b: seq<T>, p: T -> bool)
    ensures Filter(a + b, p) == Filter(a, p) + Filter(b, p)
  {
    if |a| > 0 {
      var head := if p(a[0]) then [a[0]] else [];
      assert (a + b)[0] == a[0];
      assert (a + b)[1..] == a[1..] + b;
      assert Filter(a + b, p) == head + Filter(a[1..] + b, p);
      FilterAppend(a[1..], b, p);
      assert Filter(a, p) == head + Filter(a[1..], p);
    } else {
      assert a + b == b;
    }
  }

  /** Filtering with a predicate every element meets changes nothing. */
  lemma {:induction false} FilterKeepsAll<T(!new)>(s: seq<T>, p: T -> bool)
    requires forall i :: 0 <= i < |s| ==> p(s[i])
    ensures Filter(s, p) == s
  {
    if |s| > 0 {
      FilterKeepsAll(s[1..], p);
      assert [s[0]] + s[1..] == s;
    }
  }

  /** Filtering a sequence without repetitions leaves a sequence without repetitions. */
  lemma {:induction false} FilterDistinct<T(!new)>(s: seq<T>, p: T -> bool)
    requires Distinct(s)
    ensures Distinct(Filter(s, p))
  {
    if |s| > 0 {
      assert Distinct(s[1..]);
      FilterDistinct(s[1..], p);
      assert s[0] !in s[1..];
    }
  }

  /** Two sequences without repetitions and without common elements
      concatenate to one without repetitions. */
  lemma DistinctConcat<T>(a: seq<T>, b: seq<T>)
    requires Distinct(a) && Distinct(b)
    requires forall x :: x in b ==> x !in a
    ensures Distinct(a + b)
  {
    forall i, j | 0 <= i < j < |a + b| ensures (a + b)[i] != (a + b)[j] {
      if i < |a| <= j {
        assert (a + b)[j] == b[j - |a|];
        assert b[j - |a|] in b;
      }
    }
  }

  /** Number of elements satisfying `p`. */
  function CountWhere<T(!new)>(s: seq<T>, p: T -> bool): (n: nat)
    ensures n <= |s|
    ensures n == |Filter(s, p)|
  {
    if |s| == 0 then 0
    else (if p(s[0]) then 1 else 0) + CountWhere(s[1..], p)
  }

  predicate Distinct<T(==)>(s: seq<T>) {
    forall i, j :: 0 <= i < j < |s| ==> s[i] != s[j]
  }

  /** `unique()`: the distinct elements, each once. */
  function Dedup<T(==,!new)>(s: seq<T>): (r: seq<T>)
    ensures Distinct(r)
    ensures forall x :: x in r <==> x in s
    ensures |r| <= |s|
  {
    DedupAfter(s, [])
  }

  function DedupAfter<T(==,!new)>(s: seq<T>, seen: seq<T>): (r: seq<T>)
    requires Distinct(seen)
    ensures Distinct(r)
    ensures forall x :: x in r <==> x in s || x in seen
    ensures |r| <= |s| + |seen|
    decreases |s|
  {
    if |s| == 0 then seen
    else if s[0] in seen then DedupAfter(s[1..], seen)
    else DedupAfter(s[1..], seen + [s[0]])
  }

  function ToSet<T(!new)>(s: seq<T>): set<T> {
    set x | x in s
  }

  /** A sequence without repetitions has as many elements as its set. */
  lemma {:induction false} DistinctCardinality<T(!new)>(s: seq<T>)
    requires Distinct(s)
    ensures |ToSet(s)| == |s|
  {
    if |s| > 0 {
      DistinctCardinality(s[1..]);
      assert ToSet(s) == {s[0]} + ToSet(s[1..]);
      assert s[0] !in ToSet(s[1..]);
    }
  }

  /** `drop_duplicates()` leaves exactly as many rows as there are distinct values. */
  lemma DedupCardinality<T(!new)>(s: seq<T>)
    ensures |Dedup(s)| == |ToSet(s)|
  {
    DistinctCardinality(Dedup(s));
    assert ToSet(Dedup(s)) == ToSet(s);
  }

  /** Counting an appended element adds one exactly when it qualifies. */
  lemma {:induction false} CountWhereSnoc<T(!new)>(s: seq<T>, x: T, p: T -> bool)
    ensures CountWhere(s + [x], p) == CountWhere(s, p) + (if p(x) then 1 else 0)
  {
    if |s| > 0 {
      CountWhereSnoc(s[1..], x, p);
      assert (s + [x])[1..] == s[1..] + [x];
    }
  }

  /** `unique().size == 1` on a non-empty sequence: all elements are equal. */
  lemma DedupSingleton<T(!new)>(s: seq<T>)
    requires |s| > 0
    ensures |Dedup(s)| == 1 <==> forall k :: 0 <= k < |s| ==> s[k] == s[0]
  {
    var d := Dedup(s);
    assert s[0] in d;
    if forall k :: 0 <= k < |s| ==> s[k] == s[0] {
      DistinctCardinality(d);
      assert ToSet(d) == {s[0]};
    }
    if |d| == 1 {
      forall k | 0 <= k < |s| ensures s[k] == s[0] {
        assert s[k] in s;
      }
    }
  }

  /** Filtering by two tests that never hold together keeps, between the
      two results, exactly the elements that pass either test. */
  lemma {:induction false} FilterUnion<T(!new)>(s: seq<T>, p: T -> bool, q: T -> bool, u: T -> bool)
    requires forall x :: u(x) == (p(x) || q(x))
    requires forall x :: !(p(x) && q(x))
    ensures multiset(Filter(s, p)) + multiset(Filter(s, q)) == multiset(Filter(s, u))
  {
    if |s| > 0 {
      FilterUnion(s[1..], p, q, u);
    }
  }

  /** A sequence has at most as many distinct elements as entries, and
      exactly as many only when it has no repetitions. */
  lemma {:induction false} SetSizeBound<T(!new)>(s: seq<T>)
    ensures |ToSet(s)| <= |s|
    ensures |ToSet(s)| == |s| ==> Distinct(s)
  {
    if |s| > 0 {
      var tail := s[1..];
      SetSizeBound(tail);
      assert ToSet(s) == {s[0]} + ToSet(tail);
      if s[0] in tail {
        assert ToSet(s) == ToSet(tail);
      } else {
        assert s[0] !in ToSet(tail);
        if |ToSet(s)| == |s| {
          forall i, j | 0 <= i < j < |s| ensures s[i] != s[j] {
            if i == 0 {
              assert s[j] == tail[j - 1];
            } else {
              assert s[i] == tail[i - 1] && s[j] == tail[j - 1];
            }
          }
        }
      }
    }
  }

  /** A test no element passes filters everything out. */
  lemma {:induction false} FilterRejectsAll<T(!new)>(s: seq<T>, p: T -> bool)
    requires forall x :: x in s ==> !p(x)
    ensures Filter(s, p) == []
  {
    if |s| > 0 {
      assert s[0] in s;
      FilterRejectsAll(s[1..], p);
    }
  }
}

=== FILE: set_piece_ending_checker.dfy ===
/** The boundary rule battery of src/data/set_piece_ending_checker.py.
    Each rule looks at a window of events whose row 0 is the restart; it
    returns `None` for the source's `[False, -1]` and `Some(id)` for
    `[True, id]`. A rule that can raise returns a `Result`. The attacking
    team is the team of row 0. */
module EndingChecker {
  import opened Wrappers
  import opened Seqs
  import opened Events
  import opened CommonTasks
  import Text

  /** `checker_function_set_up`: rejects a start id that is not a positive
      int, then uses the supplied window, or else the one the window
      generator produced for that id. */
  function CheckerSetUp(spStartId: int, supplied: Option<seq<Event>>, generated: seq<Event>): (r: Result<seq<Event>>)
    ensures r.Ok? <==> spStartId > 0
    ensures r.Err? ==> r.error == AssertionError
    ensures r.Ok? && supplied.Some? ==> r.value == supplied.value
    ensures r.Ok? && supplied.None? ==> r.value == generated
  {
    var _ :- IdChecker(IntArg(spStartId));
    Ok(if supplied.Some? then supplied.value else generated)
  }

  /* ---------------------------------------------------------------------
     Rule 1: changed possession
     --------------------------------------------------------------------- */

  const OppPossessionTimeThreshold: real := 15.0
  const ConsecutivePassesThreshold := 3
  const Midfield := 50

  /** The state the scan carries between rows: the run's pass count and
      elapsed time, the ids of the run's rows, and the eventSec of the last
      opposing row (`past_event_by_opp`), which attacking rows never clear. */
  datatype Run = Run(count: int, time: real, ids: seq<int>, lastOppSec: Option<real>)

  const NoRun := Run(0, 0.0, [], None)

  predicate PossessionTrigger(e: Event, count: int, time: real)
    requires Located(e)
  {
    || count > ConsecutivePassesThreshold
    || time >= OppPossessionTimeThreshold
    || StartOf(e).x > Midfield
    || EndOf(e).x > Midfield
    || CounterAttackTag in e.tags
  }

  /** The row just before the run's first row when the run has members,
      otherwise the triggering row itself. */
  function RunBoundary(w: seq<Event>, ids: seq<int>, current: Event): int
    requires forall x :: x in ids ==> x in IdsOf(w)
  {
    if ids == [] then current.id
    else
      var k := FirstRowWithId(w, ids[0]).value;
      RowAt(w, k - 1).id
  }

  /** The scan of `changed_possession` from row `i` on. */
  function PossessionScan(w: seq<Event>, i: nat, run: Run): Option<int>
    requires 1 <= i <= |w| && AllLocated(w)
    requires forall x :: x in run.ids ==> x in IdsOf(w)
    decreases |w| - i
  {
    if i == |w| then None
    else
      var e := w[i];
      if e.teamId != w[0].teamId then
        var count := if run.lastOppSec.Some? then run.count + 1 else run.count;
        var time := if run.lastOppSec.Some? then run.time + (e.eventSec - run.lastOppSec.value) else run.time;
        if PossessionTrigger(e, count, time) then Some(RunBoundary(w, run.ids, e))
        else PossessionScan(w, i + 1, Run(count, time, run.ids + [e.id], Some(e.eventSec)))
      else
        PossessionScan(w, i + 1, Run(0, 0.0, [], run.lastOppSec))
  }

  function PossessionEnd(w: seq<Event>): Option<int>
    requires AllLocated(w)
  {
    if |w| == 0 then None else PossessionScan(w, 1, NoRun)
  }

  /** `changed_possession`. */
  method ChangedPossession(w: seq<Event>) returns (r: Option<int>)
    requires AllLocated(w)
    ensures r == PossessionEnd(w)
  {
    r := None;
    if |w| == 0 {
      return;
    }
    var count, time, ids := 0, 0.0, [];
    var pastByOpp, pastSec := false, -1.0;
    var i := 1;
    while i < |w|
      invariant 1 <= i <= |w|
      invariant forall x :: x in ids ==> x in IdsOf(w)
      invariant PossessionScan(w, i, Run(count, time, ids, if pastByOpp then Some(pastSec) else None)) == PossessionEnd(w)
    {
      var e := w[i];
      if e.teamId != w[0].teamId {
        if pastByOpp {
          time := time + (e.eventSec - pastSec);
          count := count + 1;
        }
        if PossessionTrigger(e, count, time) {
          r := Some(RunBoundary(w, ids, e));
          return;
        }
        pastByOpp, pastSec := true, e.eventSec;
        ids := ids + [e.id];
      } else {
        count, time, ids := 0, 0.0, [];
      }
      i := i + 1;
    }
  }

  /** Rows `from`..`to`-1 are all by the attacking team. */
  ghost predicate AttackingRows(w: seq<Event>, from: nat, to: nat)
    requires 0 < |w| && to <= |w|
  {
    forall k :: from <= k < to ==> w[k].teamId == w[0].teamId
  }

  lemma {:induction false} PossessionScanAttacking(w: seq<Event>, i: nat, run: Run)
    requires 1 <= i <= |w| && AllLocated(w)
    requires forall x :: x in run.ids ==> x in IdsOf(w)
    requires AttackingRows(w, i, |w|)
    ensures PossessionScan(w, i, run) == None
    decreases |w| - i
  {
    if i < |w| {
      PossessionScanAttacking(w, i + 1, Run(0, 0.0, [], run.lastOppSec));
    }
  }

  /** Only rows of the opposing team can end a sequence by a change of possession. */
  lemma PossessionNeedsOpponent(w: seq<Event>)
    requires AllLocated(w) && 0 < |w| && AttackingRows(w, 1, |w|)
    ensures PossessionEnd(w) == None
  {
    PossessionScanAttacking(w, 1, NoRun);
  }

  lemma {:induction false} PossessionScanInWindow(w: seq<Event>, i: nat, run: Run)
    requires 1 <= i <= |w| && AllLocated(w)
    requires forall x :: x in run.ids ==> x in IdsOf(w)
    ensures PossessionScan(w, i, run).Some? ==> PossessionScan(w, i, run).value in IdsOf(w)
    decreases |w| - i
  {
    if i < |w| {
      var e := w[i];
      assert e.id == IdsOf(w)[i];
      if e.teamId != w[0].teamId {
        var count := if run.lastOppSec.Some? then run.count + 1 else run.count;
        var time := if run.lastOppSec.Some? then run.time + (e.eventSec - run.lastOppSec.value) else run.time;
        if PossessionTrigger(e, count, time) {
          if run.ids != [] {
            var k: int := FirstRowWithId(w, run.ids[0]).value;
            var b := RowAt(w, k - 1);
            var j :| 0 <= j < |w| && w[j] == b;
            assert IdsOf(w)[j] == b.id;
          }
        } else {
          PossessionScanInWindow(w, i + 1, Run(count, time, run.ids + [e.id], Some(e.eventSec)));
        }
      } else {
        PossessionScanInWindow(w, i + 1, Run(0, 0.0, [], run.lastOppSec));
      }
    }
  }

  /** The boundary of a change of possession is a row of the window. */
  lemma PossessionEndInWindow(w: seq<Event>)
    requires AllLocated(w)
    ensures PossessionEnd(w).Some? ==> PossessionEnd(w).value in IdsOf(w)
  {
    if |w| > 0 {
      PossessionScanInWindow(w, 1, NoRun);
    }
  }

  lemma {:induction false} PossessionScanToFirstOpponent(w: seq<Event>, i: nat, k: nat)
    requires 1 <= i <= k < |w| && AllLocated(w)
    requires AttackingRows(w, i, k)
    ensures PossessionScan(w, i, NoRun) == PossessionScan(w, k, NoRun)
    decreases k - i
  {
    if i < k {
      PossessionScanToFirstOpponent(w, i + 1, k);
    }
  }

  /** When the first opposing row starts or ends beyond the midfield line,
      or is tagged as a counter-attack, the sequence ends at that row: the
      run has no members yet and no time or passes have accumulated. */
  lemma FirstOpponentRowEndsAtItself(w: seq<Event>, k: nat)
    requires AllLocated(w) && 1 <= k < |w|
    requires AttackingRows(w, 1, k) && w[k].teamId != w[0].teamId
    requires StartOf(w[k]).x > Midfield || EndOf(w[k]).x > Midfield || CounterAttackTag in w[k].tags
    ensures PossessionEnd(w) == Some(w[k].id)
  {
    PossessionScanToFirstOpponent(w, 1, k);
  }

  /** The ids of rows `from`..`to`-1. */
  function RunIds(w: seq<Event>, from: nat, to: nat): (r: seq<int>)
    requires from <= to <= |w|
    ensures |r| == to - from
    ensures forall m :: 0 <= m < |r| ==> r[m] == w[from + m].id
    ensures forall x :: x in r ==> x in IdsOf(w)
  {
    IdsOf(w)[from..to]
  }

  /** One opposing row: a pass and the time since the previous opposing row
      are added only when there was one, then the row either triggers or
      joins the run. */
  lemma OpponentStep(w: seq<Event>, i: nat, run: Run)
    requires AllLocated(w) && 1 <= i < |w|
    requires forall x :: x in run.ids ==> x in IdsOf(w)
    requires w[i].teamId != w[0].teamId
    ensures var count := if run.lastOppSec.Some? then run.count + 1 else run.count;
            var time := if run.lastOppSec.Some? then run.time + (w[i].eventSec - run.lastOppSec.value) else run.time;
            PossessionScan(w, i, run) ==
              if PossessionTrigger(w[i], count, time) then Some(RunBoundary(w, run.ids, w[i]))
              else PossessionScan(w, i + 1, Run(count, time, run.ids + [w[i].id], Some(w[i].eventSec)))
  {
    assert w[i].id == IdsOf(w)[i];
  }

  /** An attacking row empties the run and keeps the last opposing eventSec. */
  lemma AttackingStep(w: seq<Event>, i: nat, run: Run)
    requires AllLocated(w) && 1 <= i < |w|
    requires forall x :: x in run.ids ==> x in IdsOf(w)
    requires w[i].teamId == w[0].teamId
    ensures PossessionScan(w, i, run) == PossessionScan(w, i + 1, Run(0, 0.0, [], run.lastOppSec))
  {
  }

  /** The first opposing row after row 0 adds neither time nor a pass: it
      is judged with a count of 0 and no elapsed time, and when it does not
      trigger, the run holds just that row and remembers its eventSec. */
  lemma FirstOpponentRowAddsNoTime(w: seq<Event>, k: nat)
    requires AllLocated(w) && 1 <= k < |w|
    requires AttackingRows(w, 1, k) && w[k].teamId != w[0].teamId
    ensures PossessionTrigger(w[k], 0, 0.0) ==> PossessionEnd(w) == Some(w[k].id)
    ensures !PossessionTrigger(w[k], 0, 0.0) ==>
              PossessionEnd(w) == PossessionScan(w, k + 1, Run(0, 0.0, RunIds(w, k, k + 1), Some(w[k].eventSec)))
  {
    PossessionScanToFirstOpponent(w, 1, k);
    OpponentStep(w, k, NoRun);
    assert [] + [w[k].id] == RunIds(w, k, k + 1);
  }

  /** Rows `k`..`j`-1 are opposing rows, none of which triggers with the
      pass count and elapsed time the run has reached at it. */
  predicate OpponentRun(w: seq<Event>, k: nat, j: nat)
    requires AllLocated(w) && 0 < |w| && k <= j <= |w|
  {
    forall m :: k <= m < j ==>
      w[m].teamId != w[0].teamId && !PossessionTrigger(w[m], m - k, w[m].eventSec - w[k].eventSec)
  }

  /** The scan state at row `j` of a run that started at row `k`: one pass
      per row after the first, the time since the first row, the run's ids
      and the eventSec of its last row. */
  function RunAt(w: seq<Event>, k: nat, j: nat): Run
    requires k < j <= |w|
  {
    Run(j - 1 - k, w[j - 1].eventSec - w[k].eventSec, RunIds(w, k, j), Some(w[j - 1].eventSec))
  }

  /** Inside a run of opposing rows that follows only attacking rows, the
      scan reaches row `j` in the state `RunAt(w, k, j)`. */
  lemma OpponentRunState(w: seq<Event>, k: nat, j: nat)
    requires AllLocated(w) && 1 <= k < j <= |w|
    requires AttackingRows(w, 1, k) && OpponentRun(w, k, j)
    ensures PossessionEnd(w) == PossessionScan(w, j, RunAt(w, k, j))
  {
    RunStarts(w, k);
    RunContinues(w, k, k + 1, j);
  }

  /** Each row of a run carries the scan to the next row's state, so the
      scan from row `i` of the run reaches row `j` unchanged. */
  lemma {:induction false} RunContinues(w: seq<Event>, k: nat, i: nat, j: nat)
    requires AllLocated(w) && 1 <= k < i <= j <= |w|
    requires OpponentRun(w, k, j)
    ensures PossessionScan(w, i, RunAt(w, k, i)) == PossessionScan(w, j, RunAt(w, k, j))
    decreases j - i
  {
    if i < j {
      assert w[i].teamId != w[0].teamId && !PossessionTrigger(w[i], i - k, w[i].eventSec - w[k].eventSec);
      RunAdvances(w, k, i);
      RunContinues(w, k, i + 1, j);
      assert PossessionScan(w, i, RunAt(w, k, i)) == PossessionScan(w, j, RunAt(w, k, j));
    } else {
      assert i == j;
      assert PossessionScan(w, i, RunAt(w, k, i)) == PossessionScan(w, j, RunAt(w, k, j));
    }
  }

  /** A first opposing row that does not trigger starts the run. */
  lemma RunStarts(w: seq<Event>, k: nat)
    requires AllLocated(w) && 1 <= k < |w|
    requires AttackingRows(w, 1, k) && OpponentRun(w, k, k + 1)
    ensures PossessionEnd(w) == PossessionScan(w, k + 1, RunAt(w, k, k + 1))
  {
    assert !PossessionTrigger(w[k], 0, 0.0);
    FirstOpponentRowAddsNoTime(w, k);
    assert Run(0, 0.0, RunIds(w, k, k + 1), Some(w[k].eventSec)) == RunAt(w, k, k + 1);
  }

  /** A non-triggering opposing row carries the run from one row to the next. */
  lemma RunAdvances(w: seq<Event>, k: nat, i: nat)
    requires AllLocated(w) && 1 <= k < i < |w|
    requires w[i].teamId != w[0].teamId && !PossessionTrigger(w[i], i - k, w[i].eventSec - w[k].eventSec)
    ensures PossessionScan(w, i, RunAt(w, k, i)) == PossessionScan(w, i + 1, RunAt(w, k, i + 1))
  {
    var before := RunAt(w, k, i);
    var e := w[i];
    OpponentStep(w, i, before);
    assert RunIds(w, k, i) + [e.id] == RunIds(w, k, i + 1);
    assert Run(before.count + 1, before.time + (e.eventSec - before.lastOppSec.value),
               before.ids + [e.id], Some(e.eventSec)) == RunAt(w, k, i + 1);
  }

  /** A run of opposing rows that follows only attacking rows ends the
      sequence, when its row `j` triggers, at the row before the run's
      first row (provided that row's id does not occur earlier). */
  lemma RunEndsBeforeRun(w: seq<Event>, k: nat, j: nat)
    requires AllLocated(w) && 1 <= k < j < |w|
    requires AttackingRows(w, 1, k) && OpponentRun(w, k, j)
    requires w[j].teamId != w[0].teamId && PossessionTrigger(w[j], j - k, w[j].eventSec - w[k].eventSec)
    requires forall m :: 0 <= m < k ==> w[m].id != w[k].id
    ensures PossessionEnd(w) == Some(w[k - 1].id)
  {
    OpponentRunState(w, k, j);
    var run := RunAt(w, k, j);
    OpponentStep(w, j, run);
    assert run.count + 1 == j - k;
    assert run.time + (w[j].eventSec - run.lastOppSec.value) == w[j].eventSec - w[k].eventSec;
    assert run.ids[0] == w[k].id;
    assert w[k].id in IdsOf(w);
    assert FirstRowWithId(w, w[k].id) == Some(k);
  }

  /** A run of more than three opposing rows after the first (more than
      three passes) ends the sequence at the row before the run. */
  lemma LongRunEndsBeforeRun(w: seq<Event>, k: nat, j: nat)
    requires AllLocated(w) && 1 <= k < j < |w|
    requires AttackingRows(w, 1, k) && OpponentRun(w, k, j)
    requires w[j].teamId != w[0].teamId && j - k > ConsecutivePassesThreshold
    requires forall m :: 0 <= m < k ==> w[m].id != w[k].id
    ensures PossessionEnd(w) == Some(w[k - 1].id)
  {
    RunEndsBeforeRun(w, k, j);
  }

  /** Attacking rows empty the run but keep the last opposing eventSec: the
      next opposing row counts one pass, its time is measured from that
      older row, and when it triggers the boundary is the row itself. */
  lemma {:induction false} RunTimeSpansInterruption(w: seq<Event>, i: nat, run: Run, q: nat)
    requires AllLocated(w) && 1 <= i < q < |w|
    requires forall x :: x in run.ids ==> x in IdsOf(w)
    requires run.lastOppSec.Some? && AttackingRows(w, i, q) && w[q].teamId != w[0].teamId
    ensures var time := w[q].eventSec - run.lastOppSec.value;
            PossessionScan(w, i, run) ==
              if PossessionTrigger(w[q], 1, time) then Some(w[q].id)
              else PossessionScan(w, q + 1, Run(1, time, RunIds(w, q, q + 1), Some(w[q].eventSec)))
    decreases q - i
  {
    var cleared := Run(0, 0.0, [], run.lastOppSec);
    AttackingStep(w, i, run);
    if i + 1 < q {
      RunTimeSpansInterruption(w, i + 1, cleared, q);
    } else {
      OpponentStep(w, q, cleared);
      assert [] + [w[q].id] == RunIds(w, q, q + 1);
    }
  }

  /* ---------------------------------------------------------------------
     Rule 2: attack reset
     --------------------------------------------------------------------- */

  const ConsecutiveBackwardThreshold := 3

  /** Strictly inside the polygon (0,0)-(55,0)-(55,100)-(0,100): shapely's
      `within` excludes the boundary. */
  predicate InBackZone(p: Point) {
    0 < p.x < 55 && 0 < p.y < 100
  }

  /** An attacking row marks a reset when a defender or goalkeeper plays it
      and it is not a shot, or when it starts or ends in the back zone. */
  predicate ResetRow(e: Event, position: Option<string>)
    requires Located(e)
  {
    || (position in {Some("DEF"), Some("GKP")} && e.eventId != ShotEvent)
    || InBackZone(EndOf(e))
    || InBackZone(StartOf(e))
  }

  /** The scan of `attack_reset` from row `i` on; `acc` is the id recorded so
      far. The three-letter position of every attacking row is looked up
      first, and a failed lookup aborts the rule. */
  function ResetScan(w: seq<Event>, players: seq<Player>, i: nat, acc: Option<int>): (r: Result<Option<int>>)
    requires 1 <= i <= |w| && AllLocated(w)
    ensures r.Ok? ==> r.value == acc || (r.value.Some? && r.value.value in IdsOf(w))
    decreases |w| - i
  {
    if i == |w| then Ok(acc)
    else if w[i].teamId != w[0].teamId then ResetScan(w, players, i + 1, acc)
    else
      var position :- NotationLookup(players, w[i].playerId, "three");
      ResetScan(w, players, i + 1, if ResetRow(w[i], position) then Some(w[i].id) else acc)
  }

  function ResetEnd(w: seq<Event>, players: seq<Player>): Result<Option<int>>
    requires AllLocated(w)
  {
    if |w| == 0 then Ok(None) else ResetScan(w, players, 1, None)
  }

  /** `attack_reset`. */
  method AttackReset(w: seq<Event>, players: seq<Player>) returns (r: Result<Option<int>>)
    requires AllLocated(w)
    ensures r == ResetEnd(w, players)
  {
    if |w| == 0 {
      return Ok(None);
    }
    var toReturn: Option<int> := None;
    for i := 1 to |w|
      invariant ResetScan(w, players, i, toReturn) == ResetEnd(w, players)
    {
      var e := w[i];
      if e.teamId == w[0].teamId {
        var position := NotationLookup(players, e.playerId, "three");
        if position.Err? {
          return Err(position.error);
        }
        var start, end := StartOf(e), EndOf(e);
        if position.value in {Some("DEF"), Some("GKP")} && e.eventId != ShotEvent {
          toReturn := Some(e.id);
        }
        if InBackZone(end) || InBackZone(start) {
          toReturn := Some(e.id);
        }
        // The backward-pass counter is re-created for every row, so it
        // never exceeds one.
        var consecBackward := 0;
        var backwardIds: seq<int> := [];
        if start.x > end.x {
          consecBackward, backwardIds := consecBackward + 1, backwardIds + [e.id];
        } else {
          consecBackward, backwardIds := 0, [];
        }
        if consecBackward >= ConsecutiveBackwardThreshold {
          assert false;
        }
      }
    }
    return Ok(toReturn);
  }

  /** Row `e` is a row of `team` whose position lookup succeeds and which
      marks a reset. */
  predicate IsReset(e: Event, team: int, players: seq<Player>) {
    && Located(e)
    && e.teamId == team
    && var position := NotationLookup(players, e.playerId, "three");
       position.Ok? && ResetRow(e, position.value)
  }

  /** Every attacking row after row 0 has a known player. */
  predicate ResetLookupsSucceed(w: seq<Event>, players: seq<Player>)
    requires 0 < |w|
  {
    forall k :: 1 <= k < |w| && w[k].teamId == w[0].teamId ==>
      NotationLookup(players, w[k].playerId, "three").Ok?
  }

  /** Row `k` is the last row from `from` on that marks a reset. */
  predicate LastReset(w: seq<Event>, players: seq<Player>, from: nat, k: nat)
    requires 0 < |w|
  {
    && from <= k < |w|
    && IsReset(w[k], w[0].teamId, players)
    && forall j :: k < j < |w| ==> !IsReset(w[j], w[0].teamId, players)
  }

  lemma {:induction false} ResetScanIsLast(w: seq<Event>, players: seq<Player>, i: nat, acc: Option<int>)
    requires 1 <= i <= |w| && AllLocated(w) && ResetLookupsSucceed(w, players)
    ensures (forall k :: i <= k < |w| ==> !IsReset(w[k], w[0].teamId, players)) ==> ResetScan(w, players, i, acc) == Ok(acc)
    ensures forall k: nat :: LastReset(w, players, i, k) ==> ResetScan(w, players, i, acc) == Ok(Some(w[k].id))
    decreases |w| - i
  {
    if i < |w| {
      var next := if IsReset(w[i], w[0].teamId, players) then Some(w[i].id) else acc;
      if w[i].teamId == w[0].teamId {
        assert NotationLookup(players, w[i].playerId, "three").Ok?;
      }
      assert ResetScan(w, players, i, acc) == ResetScan(w, players, i + 1, next);
      ResetScanIsLast(w, players, i + 1, next);
      forall k: nat | LastReset(w, players, i, k)
        ensures ResetScan(w, players, i, acc) == Ok(Some(w[k].id))
      {
        if k > i {
          assert LastReset(w, players, i + 1, k);
        }
      }
    }
  }

  /** `attack_reset` returns the id of the last attacking row after row 0
      that marks a reset, and does not fire when there is none. */
  lemma AttackResetIsLastReset(w: seq<Event>, players: seq<Player>)
    requires AllLocated(w) && 0 < |w| && ResetLookupsSucceed(w, players)
    ensures (forall k :: 1 <= k < |w| ==> !IsReset(w[k], w[0].teamId, players)) ==> ResetEnd(w, players) == Ok(None)
    ensures forall k: nat :: LastReset(w, players, 1, k) ==> ResetEnd(w, players) == Ok(Some(w[k].id))
  {
    ResetScanIsLast(w, players, 1, None);
  }

  lemma {:induction false} ResetScanFails(w: seq<Event>, players: seq<Player>, i: nat, acc: Option<int>, k: nat)
    requires 1 <= i <= k < |w| && AllLocated(w)
    requires w[k].teamId == w[0].teamId && NotationLookup(players, w[k].playerId, "three").Err?
    ensures ResetScan(w, players, i, acc).Err?
    decreases |w| - i
  {
    var position := NotationLookup(players, w[i].playerId, "three");
    if i == k {
      assert ResetScan(w, players, i, acc) == Err(position.error);
    } else if w[i].teamId != w[0].teamId {
      ResetScanFails(w, players, i + 1, acc, k);
      assert ResetScan(w, players, i, acc) == ResetScan(w, players, i + 1, acc);
      assert ResetScan(w, players, i, acc).Err?;
    } else if position.Err? {
      assert ResetScan(w, players, i, acc) == Err(position.error);
    } else {
      var next := if ResetRow(w[i], position.value) then Some(w[i].id) else acc;
      ResetScanFails(w, players, i + 1, next, k);
      assert ResetScan(w, players, i, acc) == ResetScan(w, players, i + 1, next);
      assert ResetScan(w, players, i, acc).Err?;
    }
  }

  /** A position lookup that fails for any attacking row aborts the rule. */
  lemma AttackResetFailsOnUnknownPlayer(w: seq<Event>, players: seq<Player>, k: nat)
    requires AllLocated(w) && 1 <= k < |w| && w[k].teamId == w[0].teamId
    requires NotationLookup(players, w[k].playerId, "three").Err?
    ensures ResetEnd(w, players).Err?
  {
    ResetScanFails(w, players, 1, None, k);
  }

  /* ---------------------------------------------------------------------
     Rule 3: goalie save
     --------------------------------------------------------------------- */

  /** The scan of `goalie_save` from row `i` on. For each save attempt
      (eventId 9) that is not the last row, the position of the next row's
      player is looked up; an attempt without the goal tag fires at once,
      since the list of save checks is never empty. */
  function SaveScan(w: seq<Event>, players: seq<Player>, i: nat): (r: Result<Option<int>>)
    requires i <= |w|
    ensures r.Ok? && r.value.Some? ==> r.value.value in IdsOf(w)
    decreases |w| - i
  {
    if i == |w| then Ok(None)
    else if w[i].eventId != SaveAttemptEvent then SaveScan(w, players, i + 1)
    else if i + 1 == |w| then Ok(None)
    else
      var _ :- NotationLookup(players, w[i + 1].playerId, "two");
      if GoalTag in w[i].tags then SaveScan(w, players, i + 1) else Ok(Some(w[i].id))
  }

  function SaveEnd(w: seq<Event>, players: seq<Player>): Result<Option<int>> {
    SaveScan(w, players, 0)
  }

  /** `goalie_save`. */
  method GoalieSave(w: seq<Event>, players: seq<Player>) returns (r: Result<Option<int>>)
    ensures r == SaveEnd(w, players)
  {
    for i := 0 to |w|
      invariant SaveScan(w, players, i) == SaveEnd(w, players)
    {
      if w[i].eventId == SaveAttemptEvent {
        if i + 1 == |w| {
          break;
        }
        var next := NotationLookup(players, w[i + 1].playerId, "two");
        if next.Err? {
          return Err(next.error);
        }
        var wasSave := [next.value == Some("GK"), SaveTag in w[i].tags];
        if GoalTag in w[i].tags {
        } else if |wasSave| > 0 {
          return Ok(Some(w[i].id));
        }
      }
    }
    return Ok(None);
  }

  /** A save attempt that does not carry the goal tag. */
  predicate UntaggedAttempt(e: Event) {
    e.eventId == SaveAttemptEvent && GoalTag !in e.tags
  }

  /** Every save attempt that has a following row is followed by a known player. */
  predicate SaveLookupsSucceed(w: seq<Event>, players: seq<Player>) {
    forall k :: 0 <= k < |w| - 1 && w[k].eventId == SaveAttemptEvent ==>
      NotationLookup(players, w[k + 1].playerId, "two").Ok?
  }

  lemma {:induction false} SaveScanIsFirst(w: seq<Event>, players: seq<Player>, i: nat)
    requires i <= |w| && SaveLookupsSucceed(w, players)
    ensures (forall k :: i <= k < |w| - 1 ==> !UntaggedAttempt(w[k])) ==> SaveScan(w, players, i) == Ok(None)
    ensures forall k :: i <= k < |w| - 1 && UntaggedAttempt(w[k]) && (forall j :: i <= j < k ==> !UntaggedAttempt(w[j])) ==>
              SaveScan(w, players, i) == Ok(Some(w[k].id))
    decreases |w| - i
  {
    if i < |w| {
      if w[i].eventId != SaveAttemptEvent {
        assert SaveScan(w, players, i) == SaveScan(w, players, i + 1);
        SaveScanIsFirst(w, players, i + 1);
      } else if i + 1 < |w| {
        assert NotationLookup(players, w[i + 1].playerId, "two").Ok?;
        if GoalTag in w[i].tags {
          assert SaveScan(w, players, i) == SaveScan(w, players, i + 1);
          SaveScanIsFirst(w, players, i + 1);
        } else {
          assert SaveScan(w, players, i) == Ok(Some(w[i].id));
        }
      }
    }
  }

  /** `goalie_save` returns the first save attempt, other than the last row,
      that does not carry the goal tag, and does not fire when there is
      none; whether the next player is the goalkeeper or the attempt carries
      the save tag plays no part. */
  lemma GoalieSaveIsFirstUntaggedAttempt(w: seq<Event>, players: seq<Player>)
    requires SaveLookupsSucceed(w, players)
    ensures (forall k :: 0 <= k < |w| - 1 ==> !UntaggedAttempt(w[k])) ==> SaveEnd(w, players) == Ok(None)
    ensures forall k :: 0 <= k < |w| - 1 && UntaggedAttempt(w[k]) && (forall j :: 0 <= j < k ==> !UntaggedAttempt(w[j])) ==>
              SaveEnd(w, players) == Ok(Some(w[k].id))
  {
    SaveScanIsFirst(w, players, 0);
  }

  /** The save checks play no part: an attempt followed by an outfield
      player, without the save tag, still ends the sequence. */
  lemma SaveChecksIgnored()
    ensures SaveEnd([
      Event(1, 3, 30, 100, 11, 5, "1H", 10.0, [Point(90, 50)], {}),
      Event(2, 9, 90, 200, 21, 5, "1H", 12.0, [Point(5, 50)], {}),
      Event(3, 8, 80, 100, 12, 5, "1H", 13.0, [Point(90, 50)], {})],
      [Player(12, map["code2" := "FW"])]) == Ok(Some(2))
  {
    assert Text.Squeeze("two") == "two";
  }

  /* ---------------------------------------------------------------------
     Rules 4-7 and 10: first-match searches
     --------------------------------------------------------------------- */

  /** Id of the first row satisfying `p` (`argwhere(mask)[0]`), row 0 included. */
  function FirstRowWhere(w: seq<Event>, p: Event -> bool): (r: Option<int>)
    ensures r.Some? <==> exists k :: 0 <= k < |w| && p(w[k])
    ensures r.Some? ==> exists k :: 0 <= k < |w| && p(w[k]) && w[k].id == r.value &&
                                    forall j :: 0 <= j < k ==> !p(w[j])
  {
    match FirstIndex(w, p)
    case None => None
    case Some(k) => Some(w[k].id)
  }

  /** `goal`: the first row carrying the goal tag. */
  function Goal(w: seq<Event>): (r: Option<int>)
    ensures r.Some? <==> exists k :: 0 <= k < |w| && GoalTag in w[k].tags
    ensures r.Some? ==> exists k :: 0 <= k < |w| && GoalTag in w[k].tags && w[k].id == r.value &&
                                    forall j :: 0 <= j < k ==> GoalTag !in w[j].tags
  {
    FirstRowWhere(w, (e: Event) => GoalTag in e.tags)
  }

  /** `foul`: the first foul row. */
  function Foul(w: seq<Event>): (r: Option<int>)
    ensures r.Some? <==> exists k :: 0 <= k < |w| && w[k].eventId == FoulEvent
    ensures r.Some? ==> exists k :: 0 <= k < |w| && w[k].eventId == FoulEvent && w[k].id == r.value &&
                                    forall j :: 0 <= j < k ==> w[j].eventId != FoulEvent
  {
    FirstRowWhere(w, (e: Event) => e.eventId == FoulEvent)
  }

  /** `offsides`: the first offside row. */
  function Offsides(w: seq<Event>): (r: Option<int>)
    ensures r.Some? <==> exists k :: 0 <= k < |w| && w[k].eventId == OffsideEvent
    ensures r.Some? ==> exists k :: 0 <= k < |w| && w[k].eventId == OffsideEvent && w[k].id == r.value &&
                                    forall j :: 0 <= j < k ==> w[j].eventId != OffsideEvent
  {
    FirstRowWhere(w, (e: Event) => e.eventId == OffsideEvent)
  }

  /** `out_of_play`: the first ball-out row. */
  function OutOfPlay(w: seq<Event>): (r: Option<int>)
    ensures r.Some? <==> exists k :: 0 <= k < |w| && w[k].subEventId == BallOutSubEvent
    ensures r.Some? ==> exists k :: 0 <= k < |w| && w[k].subEventId == BallOutSubEvent && w[k].id == r.value &&
                                    forall j :: 0 <= j < k ==> w[j].subEventId != BallOutSubEvent
  {
    FirstRowWhere(w, (e: Event) => e.subEventId == BallOutSubEvent)
  }

  /** Row `k` is the window's first restart row. */
  predicate FirstRestartAt(w: seq<Event>, k: int) {
    && 0 <= k < |w|
    && w[k].eventId == SetPieceEvent
    && forall j :: 0 <= j < k ==> w[j].eventId != SetPieceEvent
  }

  /** `another_set_piece`: the row before the first restart row. Row 0 is
      normally the restart itself, and position -1 is then the window's
      last row. */
  function AnotherSetPiece(w: seq<Event>): (r: Option<int>)
    ensures r.Some? <==> exists k :: 0 <= k < |w| && w[k].eventId == SetPieceEvent
    ensures r.Some? ==> exists k :: FirstRestartAt(w, k) && r.value == RowAt(w, k - 1).id
    ensures 0 < |w| && w[0].eventId == SetPieceEvent ==> r == Some(w[|w| - 1].id)
  {
    var first := FirstIndex(w, (e: Event) => e.eventId == SetPieceEvent);
    if first.None? then None
    else
      var k := first.value;
      assert 0 < |w| && w[0].eventId == SetPieceEvent ==> k == 0;
      assert FirstRestartAt(w, k);
      Some(RowAt(w, k - 1).id)
  }

  /* ---------------------------------------------------------------------
     Rule 8: end of regulation
     --------------------------------------------------------------------- */

  /** No row of the window is a referee whistle. */
  predicate NoWhistle(w: seq<Event>) {
    forall k :: 0 <= k < |w| ==> w[k].subEventId != WhistleSubEvent
  }

  /** Row `m` of the look-ahead is the first whose match differs from row 0's. */
  predicate FirstMatchChangeAt(la: seq<Event>, m: int) {
    && 0 < m < |la|
    && la[m].matchId != la[0].matchId
    && forall j :: 0 <= j < m ==> la[j].matchId == la[0].matchId
  }

  /** Row `p` of the look-ahead is the first whose period differs from row 0's. */
  predicate FirstPeriodChangeAt(la: seq<Event>, p: int) {
    && 0 < p < |la|
    && la[p].matchPeriod != la[0].matchPeriod
    && forall j :: 0 <= j < p ==> la[j].matchPeriod == la[0].matchPeriod
  }

  /** Every row of the look-ahead belongs to row 0's match. */
  predicate SameMatch(la: seq<Event>) {
    forall k :: 0 <= k < |la| ==> la[k].matchId == la[0].matchId
  }

  /** `end_of_regulation`, given the untrimmed look-ahead of ten events from
      the restart. With a whistle anywhere in the window the rule cannot
      fire: the next row is taken to be the whistle row itself. Otherwise the
      row before the first change of match overrides the row before the
      first change of period. */
  function RegulationEnd(w: seq<Event>, lookAhead: seq<Event>): (r: Result<Option<int>>)
    ensures r.Err? <==> (forall k :: 0 <= k < |w| ==> w[k].subEventId != WhistleSubEvent) && |lookAhead| == 0
    ensures r.Err? ==> r.error == IndexError
    ensures r.Ok? && r.value.Some? ==>
              exists m :: 1 <= m < |lookAhead| && r.value.value == lookAhead[m - 1].id &&
                          lookAhead[m - 1].matchId == lookAhead[0].matchId &&
                          (lookAhead[m].matchId != lookAhead[0].matchId ||
                           lookAhead[m].matchPeriod != lookAhead[0].matchPeriod)
    ensures r.Ok? && r.value.None? && (forall k :: 0 <= k < |w| ==> w[k].subEventId != WhistleSubEvent) ==>
              forall k :: 0 <= k < |lookAhead| ==>
                lookAhead[k].matchId == lookAhead[0].matchId && lookAhead[k].matchPeriod == lookAhead[0].matchPeriod
    ensures NoWhistle(w) ==>
              forall m :: FirstMatchChangeAt(lookAhead, m) ==> r == Ok(Some(lookAhead[m - 1].id))
    ensures NoWhistle(w) && SameMatch(lookAhead) ==>
              forall p :: FirstPeriodChangeAt(lookAhead, p) ==> r == Ok(Some(lookAhead[p - 1].id))
  {
    if exists k :: 0 <= k < |w| && w[k].subEventId == WhistleSubEvent then Ok(None)
    else if |lookAhead| == 0 then Err(IndexError)
    else
      var first := lookAhead[0];
      var periodCut := FirstIndex(lookAhead, (e: Event) => e.matchPeriod != first.matchPeriod);
      var matchCut := FirstIndex(lookAhead, (e: Event) => e.matchId != first.matchId);
      if matchCut.Some? then Ok(Some(RowAt(lookAhead, matchCut.value - 1).id))
      else if periodCut.Some? then Ok(Some(RowAt(lookAhead, periodCut.value - 1).id))
      else Ok(None)
  }

  /** `end_of_regulation`. */
  method EndOfRegulation(w: seq<Event>, lookAhead: seq<Event>) returns (r: Result<Option<int>>)
    ensures r == RegulationEnd(w, lookAhead)
  {
    var whistle := FirstIndex(w, (e: Event) => e.subEventId == WhistleSubEvent);
    if whistle.Some? {
      for i := 0 to |w| {
        if w[i].subEventId == WhistleSubEvent {
          var whistleRow := w[i];
          // Adding one to the one-element index list raises TypeError, and
          // the handler falls back to the whistle row itself.
          var nextRow := whistleRow;
          if whistleRow.matchPeriod != nextRow.matchPeriod || whistleRow.matchId != nextRow.matchId {
            assert false;
          }
        }
      }
      return Ok(None);
    }
    if |lookAhead| == 0 {
      return Err(IndexError);
    }
    var first := lookAhead[0];
    var periodCut := FirstIndex(lookAhead, (e: Event) => e.matchPeriod != first.matchPeriod);
    var matchCut := FirstIndex(lookAhead, (e: Event) => e.matchId != first.matchId);
    r := Ok(None);
    if periodCut.Some? {
      r := Ok(Some(RowAt(lookAhead, periodCut.value - 1).id));
    }
    if matchCut.Some? {
      r := Ok(Some(RowAt(lookAhead, matchCut.value - 1).id));
    }
  }

  /** A whistle anywhere in the window keeps the rule from firing. */
  lemma WhistleNeverEndsRegulation(w: seq<Event>, lookAhead: seq<Event>, k: nat)
    requires k < |w| && w[k].subEventId == WhistleSubEvent
    ensures RegulationEnd(w, lookAhead) == Ok(None)
  {
  }

  /* ---------------------------------------------------------------------
     Rule 9: effective clearance
     --------------------------------------------------------------------- */

  /** A clearance that travels at least 60 units forward (squared
      displacement at least 3600, positive dx) or at least 40 units along x. */
  predicate ClearsEffectively(e: Event)
    requires |e.positions| >= 2
  {
    var dx := e.positions[1].x - e.positions[0].x;
    var dy := e.positions[1].y - e.positions[0].y;
    (dx * dx + dy * dy >= 3600 && dx > 0) || dx >= 40
  }

  /** The scan of `effective_clearance` from row `i` on. Every clearance
      needs a start and an end position; the boundary is the row before the
      clearance (the last row when the clearance is row 0), and a later
      effective clearance overrides an earlier one. */
  function ClearanceScan(w: seq<Event>, i: nat, acc: Option<int>): (r: Result<Option<int>>)
    requires i <= |w|
    ensures r.Err? <==> exists k :: i <= k < |w| && w[k].subEventId == ClearanceSubEvent && |w[k].positions| < 2
    ensures r.Err? ==> r.error == IndexError
    ensures r.Ok? ==> r.value == acc || (r.value.Some? && r.value.value in IdsOf(w))
    decreases |w| - i
  {
    if i == |w| then Ok(acc)
    else if w[i].subEventId != ClearanceSubEvent then ClearanceScan(w, i + 1, acc)
    else if |w[i].positions| < 2 then Err(IndexError)
    else ClearanceScan(w, i + 1, if ClearsEffectively(w[i]) then Some(RowAt(w, i - 1).id) else acc)
  }

  function ClearanceEnd(w: seq<Event>): Result<Option<int>> {
    ClearanceScan(w, 0, None)
  }

  /** `effective_clearance`. */
  method EffectiveClearance(w: seq<Event>) returns (r: Result<Option<int>>)
    ensures r == ClearanceEnd(w)
  {
    var toReturn: Option<int> := None;
    for i := 0 to |w|
      invariant ClearanceScan(w, i, toReturn) == ClearanceEnd(w)
    {
      if w[i].subEventId == ClearanceSubEvent {
        if |w[i].positions| < 2 {
          return Err(IndexError);
        }
        var start, end := w[i].positions[0], w[i].positions[1];
        var lateral := end.x - start.x;
        var squaredTotal := lateral * lateral + (end.y - start.y) * (end.y - start.y);
        if squaredTotal >= 3600 && lateral > 0 {
          toReturn := Some(RowAt(w, i - 1).id);
        } else if lateral >= 40 {
          toReturn := Some(RowAt(w, i - 1).id);
        }
      }
    }
    return Ok(toReturn);
  }

  /** A clearance with both positions that clears effectively. */
  predicate Effective(e: Event) {
    e.subEventId == ClearanceSubEvent && |e.positions| >= 2 && ClearsEffectively(e)
  }

  /** Row `k` is the last effective clearance from `from` on. */
  predicate LastEffective(w: seq<Event>, from: nat, k: nat) {
    && from <= k < |w|
    && Effective(w[k])
    && forall j :: k < j < |w| ==> !Effective(w[j])
  }

  lemma {:induction false} ClearanceScanIsLast(w: seq<Event>, i: nat, acc: Option<int>)
    requires i <= |w|
    requires forall k :: 0 <= k < |w| && w[k].subEventId == ClearanceSubEvent ==> |w[k].positions| >= 2
    ensures (forall k :: i <= k < |w| ==> !Effective(w[k])) ==> ClearanceScan(w, i, acc) == Ok(acc)
    ensures forall k: nat :: LastEffective(w, i, k) ==> ClearanceScan(w, i, acc) == Ok(Some(RowAt(w, k - 1).id))
    decreases |w| - i
  {
    if i < |w| {
      var next := if Effective(w[i]) then Some(RowAt(w, i - 1).id) else acc;
      assert ClearanceScan(w, i, acc) == ClearanceScan(w, i + 1, next);
      ClearanceScanIsLast(w, i + 1, next);
      forall k: nat | LastEffective(w, i, k)
        ensures ClearanceScan(w, i, acc) == Ok(Some(RowAt(w, k - 1).id))
      {
        if k > i {
          assert LastEffective(w, i + 1, k);
        }
      }
    }
  }

  /** When every clearance has an end position, `effective_clearance`
      returns the row before the last effective clearance, and does not
      fire when there is none. */
  lemma EffectiveClearanceIsLast(w: seq<Event>)
    requires forall k :: 0 <= k < |w| && w[k].subEventId == ClearanceSubEvent ==> |w[k].positions| >= 2
    ensures (forall k :: 0 <= k < |w| ==> !Effective(w[k])) ==> ClearanceEnd(w) == Ok(None)
    ensures forall k :: 0 <= k < |w| && Effective(w[k]) && (forall j :: k < j < |w| ==> !Effective(w[j])) ==>
              ClearanceEnd(w) == Ok(Some(RowAt(w, k - 1).id))
  {
    ClearanceScanIsLast(w, 0, None);
    forall k | 0 <= k < |w| && Effective(w[k]) && (forall j :: k < j < |w| ==> !Effective(w[j]))
      ensures ClearanceEnd(w) == Ok(Some(RowAt(w, k - 1).id))
    {
      assert LastEffective(w, 0, k);
    }
  }

  /* ---------------------------------------------------------------------
     The battery
     --------------------------------------------------------------------- */

  const RuleCount := 10
  /** Position of `end_of_regulation` in `checks`: the only rule whose id
      comes from the look-ahead rather than the window. */
  const RegulationRule := 7

  /** `[check() for check in checks]`: the ten rules in the order of
      `SetPieceChecker.checks`, all on the same window; the first rule that
      raises aborts the evaluation. */
  function RunChecks(w: seq<Event>, lookAhead: seq<Event>, players: seq<Player>): (r: Result<seq<Option<int>>>)
    requires AllLocated(w)
    ensures r.Err? <==> ResetEnd(w, players).Err? || SaveEnd(w, players).Err? ||
                        RegulationEnd(w, lookAhead).Err? || ClearanceEnd(w).Err?
    ensures ResetEnd(w, players).Err? ==> r == Err(ResetEnd(w, players).error)
    ensures r.Ok? ==> |r.value| == RuleCount
    ensures r.Ok? ==>
              r.value == [PossessionEnd(w), ResetEnd(w, players).value, SaveEnd(w, players).value,
                          Goal(w), Foul(w), Offsides(w), OutOfPlay(w),
                          RegulationEnd(w, lookAhead).value, ClearanceEnd(w).value, AnotherSetPiece(w)]
  {
    var reset :- ResetEnd(w, players);
    var save :- SaveEnd(w, players);
    var regulation :- RegulationEnd(w, lookAhead);
    var clearance :- ClearanceEnd(w);
    Ok([PossessionEnd(w), reset, save, Goal(w), Foul(w), Offsides(w), OutOfPlay(w),
        regulation, clearance, AnotherSetPiece(w)])
  }

  /** Runs every rule method of the checker in order. */
  method EvaluateChecks(w: seq<Event>, lookAhead: seq<Event>, players: seq<Player>) returns (r: Result<seq<Option<int>>>)
    requires AllLocated(w)
    ensures r == RunChecks(w, lookAhead, players)
  {
    var possession := ChangedPossession(w);
    var reset := AttackReset(w, players);
    if reset.Err? {
      return Err(reset.error);
    }
    var save := GoalieSave(w, players);
    if save.Err? {
      return Err(save.error);
    }
    var regulation := EndOfRegulation(w, lookAhead);
    if regulation.Err? {
      return Err(regulation.error);
    }
    var clearance := EffectiveClearance(w);
    if clearance.Err? {
      return Err(clearance.error);
    }
    r := Ok([possession, reset.value, save.value, Goal(w), Foul(w), Offsides(w), OutOfPlay(w),
             regulation.value, clearance.value, AnotherSetPiece(w)]);
  }

  lemma FirstRowWhereInWindow(w: seq<Event>, p: Event -> bool)
    ensures FirstRowWhere(w, p).Some? ==> FirstRowWhere(w, p).value in IdsOf(w)
  {
    if FirstRowWhere(w, p).Some? {
      var k :| 0 <= k < |w| && p(w[k]) && w[k].id == FirstRowWhere(w, p).value;
      assert w[k] in w;
    }
  }

  lemma AnotherSetPieceInWindow(w: seq<Event>)
    ensures AnotherSetPiece(w).Some? ==> AnotherSetPiece(w).value in IdsOf(w)
  {
    var another := AnotherSetPiece(w);
    if another.Some? {
      var k :| FirstRestartAt(w, k) && another.value == RowAt(w, k - 1).id;
      assert RowAt(w, k - 1) in w;
    }
  }

  lemma RegulationEndInLookAhead(w: seq<Event>, lookAhead: seq<Event>)
    ensures var r := RegulationEnd(w, lookAhead);
            r.Ok? && r.value.Some? ==> r.value.value in IdsOf(lookAhead)
  {
    var r := RegulationEnd(w, lookAhead);
    if r.Ok? && r.value.Some? {
      var m :| 1 <= m < |lookAhead| && r.value.value == lookAhead[m - 1].id;
      assert lookAhead[m - 1] in lookAhead;
    }
  }

  /** Every id a rule reports is the id of a row of the window, except that
      of `end_of_regulation`, which is a row of the look-ahead. */
  lemma RuleIdsInWindow(w: seq<Event>, lookAhead: seq<Event>, players: seq<Player>)
    requires AllLocated(w)
    ensures PossessionEnd(w).Some? ==> PossessionEnd(w).value in IdsOf(w)
    ensures var r := ResetEnd(w, players); r.Ok? && r.value.Some? ==> r.value.value in IdsOf(w)
    ensures var r := SaveEnd(w, players); r.Ok? && r.value.Some? ==> r.value.value in IdsOf(w)
    ensures Goal(w).Some? ==> Goal(w).value in IdsOf(w)
    ensures Foul(w).Some? ==> Foul(w).value in IdsOf(w)
    ensures Offsides(w).Some? ==> Offsides(w).value in IdsOf(w)
    ensures OutOfPlay(w).Some? ==> OutOfPlay(w).value in IdsOf(w)
    ensures var r := RegulationEnd(w, lookAhead); r.Ok? && r.value.Some? ==> r.value.value in IdsOf(lookAhead)
    ensures var r := ClearanceEnd(w); r.Ok? && r.value.Some? ==> r.value.value in IdsOf(w)
    ensures AnotherSetPiece(w).Some? ==> AnotherSetPiece(w).value in IdsOf(w)
  {
    PossessionEndInWindow(w);
    FirstRowWhereInWindow(w, (e: Event) => GoalTag in e.tags);
    FirstRowWhereInWindow(w, (e: Event) => e.eventId == FoulEvent);
    FirstRowWhereInWindow(w, (e: Event) => e.eventId == OffsideEvent);
    FirstRowWhereInWindow(w, (e: Event) => e.subEventId == BallOutSubEvent);
    RegulationEndInLookAhead(w, lookAhead);
    AnotherSetPieceInWindow(w);
  }
}

=== FILE: team_data.dfy ===
/** Team-name search of src/data/team_data.py: the user's team name is
    normalised (the word "FC" dropped), its capitals form an acronym, and
    the team table is searched by name and, for acronyms of two letters or
    more, by acronym; exactly one distinct match yields the team's id. */
module Teams {
  import opened Wrappers
  import opened Seqs
  import opened Text

  // ---------------------------------------------------------------------
  // Words: `str.split()` and `" ".join(...)`
  // ---------------------------------------------------------------------

  predicate IsWord(w: string) {
    |w| > 0 && forall i :: 0 <= i < |w| ==> !IsSpace(w[i])
  }

  /** Length of the leading run of non-space characters. */
  function WordLength(s: string): (k: nat)
    ensures k <= |s|
    ensures forall i :: 0 <= i < k ==> !IsSpace(s[i])
    ensures k < |s| ==> IsSpace(s[k])
  {
    match FirstIndex(s, IsSpace)
    case None => |s|
    case Some(i) => i
  }

  /** `s.split()`: the maximal runs of non-whitespace characters, in order. */
  function Words(s: string): (r: seq<string>)
    ensures forall i :: 0 <= i < |r| ==> IsWord(r[i])
    ensures forall w :: w in r ==> IsWord(w)
    decreases |s|
  {
    if |s| == 0 then []
    else if IsSpace(s[0]) then Words(s[1..])
    else
      var k := WordLength(s);
      [s[..k]] + Words(s[k..])
  }

  /** `" ".join(words)`. */
  function Join(words: seq<string>): string {
    if |words| == 0 then ""
    else if |words| == 1 then words[0]
    else words[0] + " " + Join(words[1..])
  }

  /** Splitting single-space-joined words gives the words back. */
  lemma {:induction false} WordsOfJoin(words: seq<string>)
    requires forall i :: 0 <= i < |words| ==> IsWord(words[i])
    ensures Words(Join(words)) == words
  {
    if |words| == 1 {
      WordsOfWord(words[0], "");
      assert words[0] + "" == words[0];
    } else if |words| > 1 {
      var rest := Join(words[1..]);
      var tail := " " + rest;
      assert Join(words) == words[0] + tail;
      WordsOfJoin(words[1..]);
      assert Words(tail) == Words(rest) by {
        assert IsSpace(tail[0]) && tail[1..] == rest;
      }
      WordsOfWord(words[0], tail);
      assert [words[0]] + words[1..] == words;
    }
  }

  /** A word followed by nothing or by whitespace is split off whole. */
  lemma WordsOfWord(w: string, tail: string)
    requires IsWord(w)
    requires |tail| == 0 || IsSpace(tail[0])
    ensures Words(w + tail) == [w] + Words(tail)
  {
    var s := w + tail;
    assert s[0] == w[0];
    var k := WordLength(s);
    assert forall i :: 0 <= i < |w| ==> s[i] == w[i];
    if |tail| > 0 {
      assert s[|w|] == tail[0];
    }
    assert k == |w|;
    assert s[..k] == w;
    assert s[k..] == tail;
  }

  // ---------------------------------------------------------------------
  // Name normalisation and acronym
  // ---------------------------------------------------------------------

  predicate NotFc(word: string) {
    Lower(word) != "fc"
  }

  /** `" ".join(w for w in name.split() if w.lower() != "fc")`. */
  function NormalizeName(name: string): (r: string)
    ensures Words(r) == Filter(Words(name), NotFc)
  {
    var kept := Filter(Words(name), NotFc);
    WordsOfJoin(kept);
    Join(kept)
  }

  /** The normalised name has no "fc" word, and normalising it again
      changes nothing. */
  lemma NormalizeNameIdempotent(name: string)
    ensures forall w :: w in Words(NormalizeName(name)) ==> Lower(w) != "fc"
    ensures NormalizeName(NormalizeName(name)) == NormalizeName(name)
  {
    var kept := Filter(Words(name), NotFc);
    FilterKeepsAll(kept, NotFc);
  }

  /** The upper-case letters of a name, in order (`l.isupper()`). */
  function Acronym(name: string): (r: string)
    ensures forall c :: c in r <==> c in name && IsUpper(c)
    ensures |r| <= |name|
  {
    Filter(name, IsUpper)
  }

  /** The acronym keeps the capitals in the order they appear: the acronym of
      two joined pieces is the two acronyms joined. */
  lemma AcronymAppend(a: string, b: string)
    ensures Acronym(a + b) == Acronym(a) + Acronym(b)
  {
    FilterAppend(a, b, IsUpper);
  }

  /** A single letter contributes itself exactly when it is upper case. */
  lemma AcronymOfLetter(c: char)
    ensures Acronym([c]) == if IsUpper(c) then [c] else []
  {
  }

  /** A name made only of "FC" words has an empty normal form. */
  lemma OnlyFcNormalizesToEmpty(name: string)
    requires forall i :: 0 <= i < |Words(name)| ==> Lower(Words(name)[i]) == "fc"
    ensures NormalizeName(name) == ""
  {
    FilterRejectsAll(Words(name), NotFc);
  }

  // ---------------------------------------------------------------------
  // The team table and the search
  // ---------------------------------------------------------------------

  /** A row of the team table after loading with accent normalisation. */
  datatype Team = Team(name: string, wyId: int, normalizedName: string, noAccentName: string, nameAcronym: string)

  /** The columns the search de-duplicates on. */
  datatype TeamKey = TeamKey(name: string, wyId: int, normalizedName: string, noAccentName: string)

  /** `team_data_loader`'s derived columns: the accent-normalised and the
      accent-free names are computed outside this model; the acronym
      column is the capitals of the normalised name. */
  function LoadTeam(name: string, wyId: int, normalizedName: string, noAccentName: string): (t: Team)
    ensures t.nameAcronym == Acronym(t.normalizedName)
    ensures (t.name, t.wyId, t.normalizedName, t.noAccentName) == (name, wyId, normalizedName, noAccentName)
  {
    Team(name, wyId, normalizedName, noAccentName, Acronym(normalizedName))
  }

  function KeyOf(t: Team): TeamKey {
    TeamKey(t.name, t.wyId, t.normalizedName, t.noAccentName)
  }

  /** Acronym search is used only for acronyms of two letters or more. */
  predicate Matches(t: Team, normed: string, acronym: string) {
    t.normalizedName == normed || t.noAccentName == normed || (|acronym| > 1 && t.nameAcronym == acronym)
  }

  /** The concatenated search frames: name matches, accent-free name
      matches, then (for a usable acronym) acronym matches. */
  function Candidates(teams: seq<Team>, normed: string, acronym: string): (r: seq<Team>)
    ensures forall t :: t in r <==> t in teams && Matches(t, normed, acronym)
  {
    Filter(teams, (t: Team) => t.normalizedName == normed)
      + Filter(teams, (t: Team) => t.noAccentName == normed)
      + (if |acronym| > 1 then Filter(teams, (t: Team) => t.nameAcronym == acronym) else [])
  }

  function Keys(ts: seq<Team>): (r: seq<TeamKey>)
    ensures |r| == |ts|
    ensures forall i :: 0 <= i < |ts| ==> r[i] == KeyOf(ts[i])
  {
    seq(|ts|, i requires 0 <= i < |ts| => KeyOf(ts[i]))
  }

  /** At least one table row matches, and all matching rows agree on the
      de-duplicated columns. */
  predicate UniqueMatch(teams: seq<Team>, normed: string, acronym: string) {
    (exists t :: t in teams && Matches(t, normed, acronym)) &&
    forall t1, t2 :: t1 in teams && Matches(t1, normed, acronym) && t2 in teams && Matches(t2, normed, acronym) ==>
      KeyOf(t1) == KeyOf(t2)
  }

  /** `team_id_extractor`: the id of the single distinct match; no match or
      several distinct matches raise ValueError. */
  function TeamIdExtractor(teamName: string, teams: seq<Team>): (r: Result<int>)
    ensures var normed := NormalizeName(teamName);
      r.Ok? <==> UniqueMatch(teams, normed, Acronym(normed))
    ensures var normed := NormalizeName(teamName);
      r.Ok? ==> forall t :: t in teams && Matches(t, normed, Acronym(normed)) ==> t.wyId == r.value
    ensures r.Err? ==> r.error == ValueError
  {
    var normed := NormalizeName(teamName);
    var acronym := Acronym(normed);
    var found := Candidates(teams, normed, acronym);
    var keys := Dedup(Keys(found));
    UniqueMatchIffSingleKey(teams, normed, acronym);
    if |keys| == 0 then Err(ValueError)
    else if |keys| != 1 then Err(ValueError)
    else Ok(keys[0].wyId)
  }

  lemma UniqueMatchIffSingleKey(teams: seq<Team>, normed: string, acronym: string)
    ensures var found := Candidates(teams, normed, acronym);
      |Dedup(Keys(found))| == 1 <==> UniqueMatch(teams, normed, acronym)
    ensures var found := Candidates(teams, normed, acronym);
      |Dedup(Keys(found))| == 1 ==> forall t :: t in teams && Matches(t, normed, acronym) ==>
                                      KeyOf(t) == Dedup(Keys(found))[0]
  {
    var d := Dedup(Keys(Candidates(teams, normed, acronym)));
    if |d| == 1 {
      SingleKeyCoversMatches(teams, normed, acronym);
    }
    if UniqueMatch(teams, normed, acronym) {
      UniqueMatchHasSingleKey(teams, normed, acronym);
    }
  }

  /** One distinct key among the candidates is the key of every match. */
  lemma SingleKeyCoversMatches(teams: seq<Team>, normed: string, acronym: string)
    requires |Dedup(Keys(Candidates(teams, normed, acronym)))| == 1
    ensures UniqueMatch(teams, normed, acronym)
    ensures forall t :: t in teams && Matches(t, normed, acronym) ==>
              KeyOf(t) == Dedup(Keys(Candidates(teams, normed, acronym)))[0]
  {
    var found := Candidates(teams, normed, acronym);
    var keys := Keys(found);
    var d := Dedup(keys);
    assert |found| > 0;
    assert found[0] in teams && Matches(found[0], normed, acronym);
    assert d == [d[0]];
    forall t | t in teams && Matches(t, normed, acronym) ensures KeyOf(t) == d[0] {
      var i :| 0 <= i < |found| && found[i] == t;
      assert keys[i] == KeyOf(t);
      assert keys[i] in d;
    }
  }

  /** Matches that agree on their key leave one distinct key. */
  lemma UniqueMatchHasSingleKey(teams: seq<Team>, normed: string, acronym: string)
    requires UniqueMatch(teams, normed, acronym)
    ensures |Dedup(Keys(Candidates(teams, normed, acronym)))| == 1
  {
    var found := Candidates(teams, normed, acronym);
    var keys := Keys(found);
    var t :| t in teams && Matches(t, normed, acronym);
    assert t in found;
    DedupSingleton(keys);
    forall i | 0 <= i < |keys| ensures keys[i] == keys[0] {
      assert found[i] in found && found[0] in found;
    }
  }

  /** A one-letter (or empty) acronym is never searched: only name matches count. */
  lemma ShortAcronymIgnored(teams: seq<Team>, normed: string, acronym: string, t: Team)
    requires |acronym| <= 1
    ensures t in Candidates(teams, normed, acronym) <==>
              t in teams && (t.normalizedName == normed || t.noAccentName == normed)
  {
  }

  /** A loaded team whose acronym is the (two letters or longer) acronym of
      the normalised input is found by acronym alone, e.g. "PSG" for
      "Paris Saint-Germain". */
  lemma AcronymFindsLoadedTeam(teamName: string, name: string, wyId: int, normalizedName: string, noAccentName: string)
    requires |Acronym(NormalizeName(teamName))| > 1
    requires Acronym(NormalizeName(teamName)) == Acronym(normalizedName)
    ensures TeamIdExtractor(teamName, [LoadTeam(name, wyId, normalizedName, noAccentName)]) == Ok(wyId)
  {
    var t := LoadTeam(name, wyId, normalizedName, noAccentName);
    var normed := NormalizeName(teamName);
    assert t in [t] && Matches(t, normed, Acronym(normed));
  }
}

=== FILE: text.dfy ===
/** Character classes and the keyword normalisation `"".join(s.lower().split())`
    that the source applies to its string options. */
module Text {
  import Seqs

  /** Python's `str.isspace` on the ASCII range: space, the controls
      \t \n \v \f \r and the separators \x1c..\x1f. */
  predicate IsSpace(c: char) {
    var n := c as int;
    n == 32 || 9 <= n <= 13 || 28 <= n <= 31
  }

  predicate IsAsciiUpper(c: char) {
    'A' <= c <= 'Z'
  }

  /** `str.isupper` on one character, for the ASCII capitals and the
      Latin-1 capitals U+00C0..U+00DE (U+00D7, the multiplication sign, is
      not a letter). */
  predicate IsUpper(c: char) {
    var n := c as int;
    65 <= n <= 90 || (192 <= n <= 222 && n != 215)
  }

  function LowerChar(c: char): (d: char)
    ensures !IsAsciiUpper(d)
    ensures IsAsciiUpper(c) ==> d as int == c as int + 32
    ensures !IsAsciiUpper(c) ==> d == c
  {
    if IsAsciiUpper(c) then (c as int + 32) as char else c
  }

  /** `str.lower` on the ASCII letters. */
  function Lower(s: string): (r: string)
    ensures |r| == |s|
    ensures forall i :: 0 <= i < |s| ==> r[i] == LowerChar(s[i])
  {
    seq(|s|, i requires 0 <= i < |s| => LowerChar(s[i]))
  }

  /** `"".join(s.lower().split())`: lower-cased, with every whitespace character removed. */
  function Squeeze(s: string): (r: string)
    ensures forall c :: c in r ==> !IsSpace(c) && !IsAsciiUpper(c)
    ensures |r| <= |s|
  {
    Seqs.Filter(Lower(s), c => !IsSpace(c))
  }

  /** A string that is already lower-case and free of whitespace is its own
      normal form. */
  lemma SqueezeKeepsNormalForm(s: string)
    requires forall i :: 0 <= i < |s| ==> !IsSpace(s[i]) && !IsAsciiUpper(s[i])
    ensures Squeeze(s) == s
  {
    assert Lower(s) == s;
    Seqs.FilterKeepsAll(s, c => !IsSpace(c));
  }

  /** Normalising twice is normalising once. */
  lemma SqueezeIdempotent(s: string)
    ensures Squeeze(Squeeze(s)) == Squeeze(s)
  {
    var r := Squeeze(s);
    assert forall i :: 0 <= i < |r| ==> r[i] in r;
    SqueezeKeepsNormalForm(r);
  }
}

=== FILE: wrappers.dfy ===
/** Failure-carrying results. Every Python exception that the modelled code
    raises becomes an `Err` carrying the exception's class. */
module Wrappers {

  /** The Python exception classes that the modelled functions raise. */
  datatype Error =
    | AssertionError
    | ValueError
    | TypeError
    | IndexError
    | KeyError
    | UnboundLocalError

  datatype Option<+T> = None | Some(value: T)

  /** A value or the exception that was raised instead; usable with `:-`. */
  datatype Result<+T> = Ok(value: T) | Err(error: Error) {

    predicate IsFailure() {
      Err?
    }

    function PropagateFailure<U>(): Result<U>
      requires Err?
    {
      Err(error)
    }

    function Extract(): T
      requires Ok?
    {
      value
    }
  }
}
